=== FILE: README.md ===
# nbdkit partclone filter — a Dafny model

The nbdkit partclone filter serves a partclone image (format 0002) as a
virtual block device. The image holds, in this order:

- a packed 110-byte header;
- a usage bitmap with one bit per block, followed by its crc32;
- the used blocks only, with a `checksum_size`-byte checksum (4 for crc32)
  after every `blocks_per_checksum` blocks.

This project models the filter's core:

- **Image** (`image.dfy`). The `struct image_header` record as a datatype, with:
  - its byte-offset table;
  - a little-endian encode/decode pair over 110-byte sequences;
  - the on-disk size of the bitmap trailer.
- **Bitmap** (`bitmap.dfy`). `test_bit`, a pure, bounds-checked bit lookup over 64-bit words.
  A word is a uint64_t value, and `(w >> b) & 1` is its binary digit `b` (`Bytes.Digit`).
- **PartcloneFilter** (`partclone_nbd.dfy`). The per-connection state that
  `partclone_prepare` builds:
  - the header;
  - the word-rounded bitmap;
  - `bitmap_size` and `block_start`.

  It also covers the size `partclone_get_size` reports.
- **Pread** (`pread.dfy`). `partclone_pread`:
  - The search loop steps a position from the physical `block_start`
    towards the virtual `offs`, one `block_size` at a time. It counts the
    used blocks among the block indices it steps over (`blocks_before_offs`),
    and fails if it runs out of bitmap first.
  - The chunk loop then zero-fills or reads every block-sized chunk of the
    caller's buffer.
  - The request is modelled as a pure plan: a list of `Zero(bufOff, len)` and
    `Read(bufOff, len, physOff)` segments.
  - The buffer those segments produce comes from a `Provider`: the image's
    bytes, plus the reads that fail.
  - Methods (`SearchLoop`, `ChunkIteration`, `ChunkLoop`, `PreadLoop`) run the
    C loops over mutable state. They are proved to compute exactly the pure
    model.

Supporting modules:

- **Bytes** (`bytes.dfy`): fixed-width unsigned integers as subset types, uint64_t wrap-around (`Wrap64`) and little-endian byte strings.
- **Outcomes** (`outcomes.dfy`): `Option` and `Result`.
- **Scenarios** (`scenarios.dfy`): a worked request on a two-block image, and the search loop's count on a four-block image.

The model follows the code as written, including behaviour a reader might
not expect. Each item below is stated by a proved contract:

- **Virtual offset in the physical offset.** A used chunk is read at
  `offs + i + block_start + (blocks_before_offs / blocks_per_checksum) * 4`,
  modulo 2^64 (`PhysicalOffset`, `LemmaPhysicalOffsetWraps`):
  - That is the chunk's *virtual* offset, plus `block_start`, plus 4 bytes
    for every `blocks_per_checksum` used blocks counted so far.
  - That displacement is not fixed. The running count starts at the
    search's `blocks_before_offs` and goes up by one with every read the
    chunk loop issues. The displacement grows by 4 each time that count
    reaches a multiple of `blocks_per_checksum` (`LemmaChunkAt`).
  - The offset does not depend on where the image stores the block, which
    is after the blocks used before it. In an image of two 512-byte blocks
    where only block 1 is used, reading virtual block 1 reads at image
    offset 634. The image holds that block at 115
    (`LemmaReadsAtVirtualOffset`).
- **The search undercounts.** The search compares a position that starts
  at the physical `block_start` with the virtual `offs`. Below 2^64 it stops
  after ceil((offs − block_start) / block_size) steps, or none when
  `offs <= block_start` (`LemmaSearchWithoutWrap`). The chunk loop, however,
  starts at block `offs / block_size` (`FirstBlock`). So `blocks_before_offs`
  misses the used blocks between the last index the search stepped over and
  the request's first block. Take four 64-byte blocks with blocks 0 and 1
  used and `block_start` 122. A request at offs 128 starts at block 2, after
  two used blocks, but the search counts one (`LemmaSearchUndercounts`).
- **Checksum size hard-coded.** The checksum adjustment is 4 bytes,
  whatever `checksum_size` the header declares. More generally, pread looks
  at no header field besides `total_block`, `block_size` and
  `blocks_per_checksum` (`LemmaChecksumSizeIgnored`,
  `LemmaPreadDependsOnGeometry`).
- **Last chunk runs past the request.** Every chunk is a whole block unless
  the whole request is shorter than one. So when `count > block_size` and
  `count` is not a multiple of it, the last chunk runs past `count`. The
  buffer written is then longer than the request (`LemmaChunksCover`,
  `PartclonePread`).
- **Bitmap size rounding.**
  - The bitmap is allocated and read in whole 64-bit words.
  - `block_start` assumes a word-rounded bitmap, but the image stores
    `ceil(total_block / 8)` bytes.
  - The two agree only when that byte count is a multiple of 8
    (`LemmaBitmapSizeVsOnDisk`, `LemmaBlockStartVsOnDisk`).
- **Wrap-around.** These are computed in uint64_t and wrap:
  - `bitmap_size`;
  - `bitmap_size * 64`;
  - the loop positions;
  - the physical offset.

  The model writes every wrap out (`BitmapSize`, `SearchLimit`, `Position`,
  `PhysicalOffset`). Below 2^64 the search behaves as the arithmetic
  suggests (`LemmaSearchWithoutWrap`).
- **Offset equal to the image size.** The guard `offset > h->size` lets an
  offset equal to the image size through, so the plugin is asked for bytes
  past the image's end (`Step`). What the plugin does then is not decided by
  the filter. The model's `Provider` treats such a read as failed
  (`ProviderRead`; see "Left out").
- **Negative size.** `get_size` returns `device_size` as an int64_t, so a
  stored size of 2^63 or more comes back negative (`GetSize`).

## Model

| member | source | states |
|---|---|---|
| Image.LemmaPacked | image.h:8-40 | the first field is at byte 0; each field starts where the one declared before it ends; the crc ends at byte 110 |
| Image.LemmaSizeIsSumOfWidths | image.h:13-40 | the record's size, 110, is the sum of the widths of its 19 fields |
| Image.LemmaFieldsFillRecord | image.h:13-40 | the fields from any field on exactly fill the record from that field's offset to its end |
| Image.Encode | image.h:13-40 | a well-formed header encodes to exactly 110 bytes |
| Image.Decode | image.h:13-40 | decoding succeeds exactly on 110-byte buffers and yields character arrays of their declared lengths |
| Image.LemmaDecodeEncode | image.h:13-40 | decoding an encoded header gives back the header |
| Image.LemmaEncodeDecode | image.h:8-40 | every 110-byte buffer decodes, and re-encoding the result gives back the same bytes |
| Image.LemmaHeadRoundTrip | image.h:14-18 | the 36 bytes of image_head_v2 re-encode to themselves after decoding |
| Image.LemmaFsInfoRoundTrip | image.h:20-26 | the 52 bytes of file_system_info_v2 re-encode to themselves after decoding |
| Image.LemmaOptionsRoundTrip | image.h:28-36 | the 18 bytes of image_options_v2 re-encode to themselves after decoding |
| Image.LemmaEncodeGroups | image.h:13-40 | the three sub-records and the crc sit at bytes 0, 36, 88 and 106 of an encoded header |
| Image.LemmaHeadLayout | image.h:15-18 | magic, partclone_version, image_version and endianess sit at bytes 0, 16, 30 and 34 of image_head_v2 |
| Image.LemmaFsInfoLayout | image.h:21-26 | the file_system_info_v2 fields sit at their offsets within the sub-record |
| Image.LemmaOptionsLayout | image.h:29-36 | the image_options_v2 fields sit at their offsets within the sub-record |
| Image.LemmaEncodeField | image.h:15-39 | any one field of an encoded header is found at its table offset and width |
| Image.LemmaEncodeLayout | image.h:15-39 | all fields of an encoded header are at their table offsets, e.g. device_size at 52, block_size at 84, checksum_size at 98, crc at 106 |
| Image.LemmaDecodeLayout | image.h:15-39 | every field of a decoded header is read from the bytes at its table offset |
| Image.OnDiskBitmapSize | image.h:42-45 | the stored bitmap is the fewest whole bytes holding one bit per block |
| Bytes.LemmaFromToLE | image.h:18-39 | reading back an integer field written little-endian gives the integer |
| Bytes.LemmaToFromLE | image.h:18-39 | writing back an integer field read little-endian gives the same bytes |
| Bitmap.TestBit | bitmap.h:9-18 | -1 exactly when the bitmap is absent or the block is at or past total; otherwise 0 or 1, and 1 exactly when bit k mod 64 of word k / 64 is set |
| Bitmap.LemmaWordIndexInBounds | bitmap.h:13-17 | a block below total lies in one of the first ceil(total / 64) words |
| Bitmap.LemmaTestBitIsPackedBit | bitmap.h:15-17 | below total, test_bit reports bit k of the bitmap read as one bit string, least significant bit of each word first |
| PartcloneFilter.ProviderRead | partclone-nbd.c:64-70 | a plugin read succeeds exactly when it stays within the image and is not a failing request, and then returns the requested number of bytes |
| PartcloneFilter.BitmapSize | partclone-nbd.c:74 | bitmap_size is a multiple of 8 giving one word per 64 blocks, and wraps to 0 when total_block + 63 overflows |
| Bytes.LemmaDigitOfLE | image.h:18-39 | bit b of a little-endian integer is bit b mod 8 of its byte b / 8 |
| PartcloneFilter.WordOf | partclone-nbd.c:75-78 | eight bitmap bytes read as one uint64_t on a little-endian host: bit b of the word is bit b mod 8 of byte b / 8 |
| PartcloneFilter.WordsOf | partclone-nbd.c:75-78 | the bitmap bytes read into a uint64_t array: bit k mod 64 of word k / 64 is bit k mod 8 of byte k / 8, the bit the image's bitmap keeps for block k |
| PartcloneFilter.Prepare | partclone-nbd.c:58-95 | prepare fails exactly when a plugin read fails; otherwise the handle holds the decoded header, the image size, the word-rounded bitmap read from byte 110, and block_start |
| PartcloneFilter.LemmaBitmapSizeVsOnDisk | partclone-nbd.c:74 | when total_block + 63 does not wrap, the word-rounded bitmap is at least the on-disk bitmap and less than 8 bytes larger; the two are equal exactly when the on-disk size is a multiple of 8 |
| PartcloneFilter.BlockStart | partclone-nbd.c:87 | block_start lies past the header and the bitmap crc, at the same offset mod 8 as 114; without wrap-around it is 110 + 8 * ceil(total_block / 64) + 4 |
| PartcloneFilter.Used | partclone-nbd.c:138 | the test `test_bit(k, bitmap, total_block) > 0` of lines 126 and 138 holds only for a block below total_block, and then exactly when bit k mod 64 of word k / 64 is set |
| PartcloneFilter.LemmaBlockStartVsOnDisk | partclone-nbd.c:87 | when total_block + 63 does not wrap, block_start is at most 7 bytes past where the image stores the first block, and exactly there when the on-disk bitmap size is a multiple of 8 |
| PartcloneFilter.LemmaPreparedBitmapIsStored | partclone-nbd.c:74-78 | unless total_block + 63 wraps, test_bit on the prepared bitmap reports block k below total_block used exactly when bit k mod 8 of byte 110 + k / 8 of the image is set |
| PartcloneFilter.LemmaPreparedIsReady | partclone-nbd.c:74-78 | when total_block + 63 does not wrap, a prepared handle is ready for pread exactly when block_size and blocks_per_checksum are non-zero |
| PartcloneFilter.GetSize | partclone-nbd.c:98-103 | the reported size is device_size as an int64_t: non-negative exactly when device_size is below 2^63, and congruent to it mod 2^64 |
| PartcloneFilter.LemmaVirtualSizeIsStoredDeviceSize | partclone-nbd.c:98-103 | the reported size is the little-endian integer at bytes 52 .. 59 of the image |
| Pread.LemmaSearchFromFails | partclone-nbd.c:120-127 | a failed search means no block boundary the loop may examine reaches offs |
| Pread.LemmaSearchFromFinds | partclone-nbd.c:120-127 | a successful search stops at the first block boundary at or past offs, having counted the used blocks on the way |
| Pread.BlocksBeforeOffs | partclone-nbd.c:117-127 | the search fails exactly when no examinable boundary reaches offs; otherwise blocks_before_offs is the number of used blocks among the first n, n being the trip count, and is at most n |
| Pread.LemmaUsedInBound | partclone-nbd.c:126 | at most one block is counted per index |
| Pread.SearchLimit | partclone-nbd.c:121 | the loop examines no index at or past total_block or bitmap_size * 64 (in uint64_t): the limit is the smaller of the two |
| Pread.LemmaPositionExact | partclone-nbd.c:120 | below 2^64 the loop's position after n steps is block_start + n * block_size |
| Pread.LemmaSearchWithoutWrap | partclone-nbd.c:120-127 | without wrap-around the search succeeds exactly when offs is at most SearchLimit blocks past block_start; it then stops at the first boundary at or past offs, with blocks_before_offs <= n <= total_block |
| Pread.SearchLoop | partclone-nbd.c:117-127 | the C search loop returns what BlocksBeforeOffs specifies |
| Pread.LemmaSearchStep | partclone-nbd.c:120-126 | one pass of the loop body moves i to the next block boundary, j on by one, and blocks_before_offs on by one exactly when block j is used, keeping the outcome of the search |
| Pread.FirstBlock | partclone-nbd.c:132 | block_offset starts at the index of the block holding offs |
| Pread.ReadCount | partclone-nbd.c:134-137 | read_count is count when count is below block_size and block_size otherwise, so never more than either |
| Pread.PhysicalOffset | partclone-nbd.c:140 | below 2^64 the physical offset is offs + i + block_start + 4 * (blocks_before_offs / blocks_per_checksum) |
| Pread.LemmaPhysicalOffsetWraps | partclone-nbd.c:140 | in general the physical offset is that sum modulo 2^64 |
| Pread.Step | partclone-nbd.c:134-158 | a chunk is read exactly when its block is used and its physical offset is within the image size, and then from that offset; it covers read_count bytes |
| Pread.Chunks | partclone-nbd.c:133-160 | the loop produces no chunk exactly when count is 0 |
| Pread.LemmaChunkAt | partclone-nbd.c:133-159 | chunk m starts at m * block_size, covers read_count bytes, and is read exactly when block first + m is used and its offset, counted with one more block per earlier read, is within the image |
| Pread.LemmaChunkIsStep | partclone-nbd.c:133-159 | chunk m is the loop body run at block_offset first + m with blocks_before_offs moved on by the earlier reads |
| Pread.LemmaChunkNext | partclone-nbd.c:133 | every chunk starts below count, the next one a block later, and the loop stops once a block further is at or past count |
| Pread.LemmaChunksCover | partclone-nbd.c:133-137 | the chunks tile the buffer from 0 and write at least count bytes and less than a block more; exactly count when count < block_size or block_size divides count |
| Pread.LemmaChunkPastEndIsZero | partclone-nbd.c:138 | a chunk whose block index is at or past total_block is zero-filled |
| Pread.LemmaNoUsedBlockNoRead | partclone-nbd.c:138-158 | with none of the request's blocks used, every chunk is zero-filled |
| Pread.Plan | partclone-nbd.c:117-160 | the call fails before any read exactly when the search fails; otherwise there is one chunk per block-sized step below count |
| Pread.PartclonePread | partclone-nbd.c:105-163 | the call succeeds exactly when the search succeeds and every read it issues succeeds; the buffer written is at least count bytes and less than a block more |
| Pread.LemmaPreadContents | partclone-nbd.c:138-158 | after a successful call each chunk's bytes are zeros when it is zero-filled and otherwise the image bytes at its physical offset |
| Pread.LemmaUnusedRangeReadsZeros | partclone-nbd.c:154-158 | once the search succeeds, a request none of whose blocks is used succeeds whatever the plugin would return, and is answered with zeros |
| Pread.LemmaStepSameGeometry | partclone-nbd.c:134-158 | the loop body gives the same segment for handles that agree on the bitmap, block_start, the image size, total_block, block_size and blocks_per_checksum |
| Pread.LemmaChunksSameGeometry | partclone-nbd.c:133-160 | the chunk loop gives the same chunks for handles that agree on that geometry |
| Pread.LemmaPreadDependsOnGeometry | partclone-nbd.c:109-112 | handles that agree on the bitmap, block_start, bitmap_size, the image size, total_block, block_size and blocks_per_checksum give the same result |
| Scenarios.LemmaReadsAtVirtualOffset | partclone-nbd.c:87-159 | with two 512-byte blocks of which only block 1 is used, a 512-byte read of virtual block 1 plans one read at image offset 634, neither block_start (122) nor 115, where the image stores that first used block |
| Scenarios.LemmaSearchUndercounts | partclone-nbd.c:120-132 | with four 64-byte blocks, blocks 0 and 1 used and block_start 122, a request at offs 128 starts at block 2 after two used blocks while the search stops after one step having counted one; at offs 100 it starts at block 1 after one used block and the search counts none |
| Pread.LemmaChecksumSizeIgnored | partclone-nbd.c:140 | changing the header's checksum_size does not change the result: the checksum adjustment is always 4 bytes |
| Pread.ChunkIteration | partclone-nbd.c:134-158 | one pass of the C loop body writes the bytes of its Step segment, fails exactly when that segment's read fails, and advances blocks_before_offs by one exactly on a read |
| Pread.LemmaLoopStep | partclone-nbd.c:147-153 | a failed plugin read means the plan's reads do not all succeed; otherwise the loop state advances by one chunk |
| Pread.RunPlan | partclone-nbd.c:133-162 | the C chunk loop returns an error exactly when some read of the plan fails, and otherwise the buffer the plan specifies |
| Pread.ChunkLoop | partclone-nbd.c:132-162 | the C chunk loop fails only on a plugin error, and otherwise writes the buffer of the modelled chunks |
| Pread.PreadLoop | partclone-nbd.c:105-163 | the C function returns exactly what PartclonePread specifies |

## Left out

- The nbdkit plumbing is not modelled: filter registration, `open`, `close`, `thread_model` and the `next` operations table. The plugin is a `Provider` value. Its `get_size` is the length of the image's bytes.
- Logging (`nbdkit_debug`, `nbdkit_error`) and `errno` are left out: they do not affect results. The two ways the call returns -1 are kept apart as `SearchOutOfRange` and `ProviderError`.
- The global `initialized` flag and the `pthread_mutex_t lock` are left out. They concern process lifecycle and concurrency, and the lock is never used.
- `malloc`, `free` and raw buffer writes are left out. `memset` and `next->pread` into `buf + i` become segments.
  - The methods keep each chunk's bytes and concatenate them, instead of writing at `buf + i` in place.
  - The model therefore shows the buffer the C code writes, including the part past `count`. It does not model the memory beyond the caller's buffer that this overrun touches.
- The header's crc and the bitmap's crc32 are never checked by the filter, so the model does not compute them either. The header's crc is carried as a plain field.
- partclone-nbd.cpp is not part of this model. It is an unfinished variant whose pread returns 0 without reading.
- PartcloneFilter.Prepare: a failure of the plugin's `get_size` (-1 at partclone-nbd.c:58) is not modelled; the provider's size is always its byte count. In the C code that -1 would be stored as `h->size` = 2^64 - 1, so the zero-fill guard `offset > h->size` at line 141 would never fire and every used chunk would be read from the plugin.
- PartcloneFilter.ProviderRead: a plugin read that runs past the image's end is modelled as an error return. The filter does not decide this; nbdkit and the plugin do. `PartclonePread`'s success condition relies on it for a request whose last read reaches the image's end.
- Image.Decode: the header's integer fields, and the bitmap words (`PartcloneFilter.WordsOf`), are read little-endian. The C code reinterprets the raw bytes in the host's byte order and never checks `endianess`, so the model is the little-endian host case.
- PartcloneFilter.Prepare: requires the image to be shorter than 2^63 bytes, the range of nbdkit's int64_t size.
- Pread.PartclonePread: requires `block_size > 0` and `blocks_per_checksum > 0` (`Ready`). This also leaves out inputs on which the C code is defined:
  - `block_size` 0 with `block_start < offs`: line 120 never advances `i`, so the guard at lines 121-125 returns -1 once `j` reaches `total_block` or `bitmap_size * 64`. That happens before line 132 divides by zero.
  - `blocks_per_checksum` 0 when none of the request's chunks is a used block: line 140 is never reached, and the request is answered with zeros.

  The remaining cases are undefined. With `block_size` 0 and `offs <= block_start`, line 132 divides by zero. With `blocks_per_checksum` 0, line 140 divides by zero on the first used block.
- Pread.PartclonePread: the bitmap must hold a word for every block (`Ready`). `partclone_prepare` guarantees this unless `total_block + 63` wraps (`LemmaPreparedIsReady`). After the wrap `bitmap_size` is 0, and `Ready` leaves out cases the C code defines:
  - the guard `j >= bitmap_size * 64` at line 121 makes every request with `offs > block_start` return -1;
  - if `malloc(0)` returned NULL, test_bit returns -1 (bitmap.h:11-12), and every chunk is zero-filled. The model's bitmap is a sequence, never NULL.

  Only a non-NULL zero-size allocation makes test_bit read past it, which has no defined result.

=== FILE: bitmap.dfy ===
/** The in-memory usage bitmap: 64-bit words, bit `k % 64` of word `k / 64`
    telling whether block `k` was in use when the image was taken. */
module Bitmap {
  import opened Outcomes
  import opened Bytes

  /** Bit `b` of word `w`, counting from the least significant bit:
      `(w >> b) & 1` is 1. */
  predicate WordBit(w: u64, b: nat)
    requires b < 64
  {
    Digit(w, b) == 1
  }

  /** Words needed to hold `total` bits. */
  function WordsFor(total: nat): nat {
    (total + 63) / 64
  }

  /** Whether block `blockOffset` is in use: -1 when there is no bitmap or the
      block lies past `total`, otherwise 0 or 1. */
  function TestBit(blockOffset: u64, bitmap: Option<seq<u64>>, total: u64): (r: int)
    requires bitmap.Some? ==> |bitmap.value| >= WordsFor(total)
    ensures r == -1 <==> bitmap.None? || blockOffset >= total
    ensures r != -1 ==> (r == 0 || r == 1)
    ensures r != -1 ==> (r == 1 <==> WordBit(bitmap.value[blockOffset / 64], blockOffset % 64))
  {
    if bitmap.None? then -1
    else if blockOffset >= total then -1
    else
      LemmaWordIndexInBounds(blockOffset, total);
      var word := bitmap.value[blockOffset / 64];
      var bit := blockOffset % 64;  // `& (64 - 1)` on an unsigned offset
      if WordBit(word, bit) then 1 else 0
  }

  /** A bit below `total` lives in one of the first WordsFor(total) words. */
  lemma LemmaWordIndexInBounds(k: nat, total: nat)
    requires k < total
    ensures k / 64 < WordsFor(total)
  {
  }

  /** The bitmap as one bit string: the 64 bits of each word, least
      significant first, word after word. */
  function Flatten(words: seq<u64>): (r: seq<bool>)
    ensures |r| == 64 * |words|
  {
    if |words| == 0 then []
    else seq(64, b requires 0 <= b < 64 => WordBit(words[0], b)) + Flatten(words[1..])
  }

  /** Bit `k` of the flattened bitmap is bit `k % 64` of word `k / 64`. */
  lemma {:induction false} LemmaFlattenIndex(words: seq<u64>, k: nat)
    requires k < 64 * |words|
    ensures Flatten(words)[k] == WordBit(words[k / 64], k % 64)
  {
    var first := seq(64, b requires 0 <= b < 64 => WordBit(words[0], b));
    var rest := Flatten(words[1..]);
    assert Flatten(words) == first + rest;
    if k < 64 {
      assert (first + rest)[k] == first[k];
    } else {
      assert (first + rest)[k] == rest[k - 64];
      LemmaFlattenIndex(words[1..], k - 64);
      assert (k - 64) / 64 == k / 64 - 1 && (k - 64) % 64 == k % 64;
    }
  }

  /** For every block below `total`, TestBit reports the bit packed at that
      position of the bitmap's bit string. */
  lemma LemmaTestBitIsPackedBit(words: seq<u64>, total: u64, k: u64)
    requires |words| >= WordsFor(total)
    requires k < total
    ensures k < |Flatten(words)|
    ensures TestBit(k, Some(words), total) == if Flatten(words)[k] then 1 else 0
  {
    LemmaWordIndexInBounds(k, total);
    LemmaFlattenIndex(words, k);
  }
}

=== FILE: bytes.dfy ===
/** Fixed-width unsigned integers, C's uint64_t wrap-around, and the
    little-endian byte order in which the image stores its integer fields. */
module Bytes {

  type u8 = x: int | 0 <= x < 0x100
  type u16 = x: int | 0 <= x < 0x1_0000
  type u32 = x: int | 0 <= x < 0x1_0000_0000
  type u64 = x: int | 0 <= x < 0x1_0000_0000_0000_0000

  const U64_MODULUS: nat := 0x1_0000_0000_0000_0000

  /** The value a uint64_t holds after an arithmetic result `x` is stored in it. */
  function Wrap64(x: nat): (r: u64)
    ensures x < U64_MODULUS ==> r == x
    ensures r <= x
  {
    x % U64_MODULUS
  }

  /** Wrapping an intermediate result does not change a wrapped sum. */
  lemma LemmaWrapAdd(a: nat, b: nat)
    ensures Wrap64(Wrap64(a) + b) == Wrap64(a + b)
  {
    var q := a / U64_MODULUS;
    assert a == q * U64_MODULUS + Wrap64(a);
    LemmaModMultiple(q, Wrap64(a) + b);
  }

  /** Wrapping an inner summand first does not change the wrapped sum. */
  lemma LemmaWrapInner(a: nat, b: nat)
    ensures Wrap64(a + Wrap64(b)) == Wrap64(a + b)
  {
    LemmaWrapAdd(b, a);
    assert Wrap64(b) + a == a + Wrap64(b) && b + a == a + b;
  }

  lemma {:induction false} LemmaModMultiple(q: nat, y: nat)
    ensures (q * U64_MODULUS + y) % U64_MODULUS == y % U64_MODULUS
  {
    if q > 0 {
      LemmaModMultiple(q - 1, y);
      assert q * U64_MODULUS + y == (q - 1) * U64_MODULUS + y + U64_MODULUS;
    }
  }

  function Pow256(n: nat): (r: nat)
    ensures r > 0
  {
    if n == 0 then 1 else 256 * Pow256(n - 1)
  }

  lemma LemmaPow256Widths()
    ensures Pow256(1) == 0x100
    ensures Pow256(2) == 0x1_0000
    ensures Pow256(4) == 0x1_0000_0000
    ensures Pow256(8) == U64_MODULUS
  {
  }

  /** The `n` bytes of `v`, least significant first. */
  function ToLE(v: nat, n: nat): (r: seq<u8>)
    requires v < Pow256(n)
    ensures |r| == n
    decreases n
  {
    if n == 0 then [] else [v % 256] + ToLE(v / 256, n - 1)
  }

  /** The unsigned value of bytes stored least significant first. */
  function FromLE(s: seq<u8>): (r: nat)
    ensures r < Pow256(|s|)
  {
    if |s| == 0 then 0 else s[0] + 256 * FromLE(s[1..])
  }

  /** Reading back what was written gives the original value. */
  lemma {:induction false} LemmaFromToLE(v: nat, n: nat)
    requires v < Pow256(n)
    ensures FromLE(ToLE(v, n)) == v
    decreases n
  {
    if n > 0 {
      var s := ToLE(v, n);
      assert s[1..] == ToLE(v / 256, n - 1);
      LemmaFromToLE(v / 256, n - 1);
    }
  }

  /** Every byte string is the encoding of the value it denotes. */
  lemma {:induction false} LemmaToFromLE(s: seq<u8>)
    ensures ToLE(FromLE(s), |s|) == s
  {
    if |s| > 0 {
      var v := FromLE(s);
      assert v % 256 == s[0];
      assert v / 256 == FromLE(s[1..]);
      LemmaToFromLE(s[1..]);
    }
  }

  function Pow2(n: nat): (r: nat)
    ensures r > 0
  {
    if n == 0 then 1 else 2 * Pow2(n - 1)
  }

  /** Binary digit `b` of `x`, counting from the least significant: what
      `(x >> b) & 1` gives for an unsigned integer x. */
  function Digit(x: nat, b: nat): (r: nat)
    ensures r < 2
  {
    if b == 0 then x % 2 else Digit(x / 2, b - 1)
  }

  /** Placing `q` above the `m` low bits of `a`: the low digits are a's, the
      ones from m on are q's. */
  lemma {:induction false} LemmaDigitSplit(a: nat, q: nat, m: nat, b: nat)
    requires a < Pow2(m)
    ensures Digit(a + Pow2(m) * q, b) == if b < m then Digit(a, b) else Digit(q, b - m)
  {
    if m > 0 {
      var k := Pow2(m - 1) * q;
      assert Pow2(m) * q == 2 * k;
      if b > 0 {
        assert (a + 2 * k) / 2 == a / 2 + k;
        LemmaDigitSplit(a / 2, q, m - 1, b - 1);
      }
    }
  }

  /** Digit `b` of a little-endian number is digit b % 8 of its byte b / 8. */
  lemma {:induction false} LemmaDigitOfLE(s: seq<u8>, b: nat)
    requires b < 8 * |s|
    ensures Digit(FromLE(s), b) == Digit(s[b / 8], b % 8)
  {
    assert Pow2(8) == 256;
    LemmaDigitSplit(s[0], FromLE(s[1..]), 8, b);
    if b >= 8 {
      LemmaDigitOfLE(s[1..], b - 8);
      assert s[1..][(b - 8) / 8] == s[b / 8];
    }
  }
}

=== FILE: image.dfy ===
/** The partclone image header, format 0002: a packed record with no padding,
    read verbatim from byte 0 of the image, followed on disk by the usage
    bitmap and its crc32. Integer fields are stored least significant byte
    first, as the record is read raw on a little-endian host. */
module Image {
  import opened Outcomes
  import opened Bytes

  const HEADER_SIZE: nat := 110
  const CRC_SIZE: nat := 4

  /** image_head_v2: identification strings and the endianness marker. */
  datatype ImageHead = ImageHead(
    magic: seq<u8>,
    partcloneVersion: seq<u8>,
    imageVersion: seq<u8>,
    endianess: u16)

  /** file_system_info_v2: the geometry of the backed-up device. */
  datatype FileSystemInfo = FileSystemInfo(
    filesystemType: seq<u8>,
    deviceSize: u64,
    totalBlock: u64,
    usedBlock: u64,
    bitmapSize: u64,
    blockSize: u32)

  /** image_options_v2: feature flags and the checksum layout. */
  datatype ImageOptions = ImageOptions(
    featureSize: u32,
    imageVersionBinary: u16,
    cpuBits: u16,
    checksumMode: u16,
    checksumSize: u16,
    blocksPerChecksum: u32,
    reseedChecksum: u8,
    bitmapMode: u8)

  datatype Header = Header(head: ImageHead, fsInfo: FileSystemInfo, options: ImageOptions, crc: u32)
  {
    /** The character arrays have their declared lengths. */
    predicate WellFormed() {
      && |head.magic| == 16
      && |head.partcloneVersion| == 14
      && |head.imageVersion| == 4
      && |fsInfo.filesystemType| == 16
    }
  }

  /** The fields of the record, in declaration order. */
  datatype Field =
    | FMagic | FPartcloneVersion | FImageVersion | FEndianess
    | FFilesystemType | FDeviceSize | FTotalBlock | FUsedBlock | FBitmapSize | FBlockSize
    | FFeatureSize | FImageVersionBinary | FCpuBits | FChecksumMode | FChecksumSize
    | FBlocksPerChecksum | FReseedChecksum | FBitmapMode
    | FCrc

  /** Width in bytes of each field's C type. */
  function Width(f: Field): nat {
    match f
    case FMagic => 16
    case FPartcloneVersion => 14
    case FImageVersion => 4
    case FEndianess => 2
    case FFilesystemType => 16
    case FDeviceSize => 8
    case FTotalBlock => 8
    case FUsedBlock => 8
    case FBitmapSize => 8
    case FBlockSize => 4
    case FFeatureSize => 4
    case FImageVersionBinary => 2
    case FCpuBits => 2
    case FChecksumMode => 2
    case FChecksumSize => 2
    case FBlocksPerChecksum => 4
    case FReseedChecksum => 1
    case FBitmapMode => 1
    case FCrc => 4
  }

  /** Byte offset of each field within the packed record. */
  function Offset(f: Field): nat {
    match f
    case FMagic => 0
    case FPartcloneVersion => 16
    case FImageVersion => 30
    case FEndianess => 34
    case FFilesystemType => 36
    case FDeviceSize => 52
    case FTotalBlock => 60
    case FUsedBlock => 68
    case FBitmapSize => 76
    case FBlockSize => 84
    case FFeatureSize => 88
    case FImageVersionBinary => 92
    case FCpuBits => 94
    case FChecksumMode => 96
    case FChecksumSize => 98
    case FBlocksPerChecksum => 100
    case FReseedChecksum => 104
    case FBitmapMode => 105
    case FCrc => 106
  }

  /** The field declared after `f`; the last field has none. */
  function Next(f: Field): Option<Field> {
    match f
    case FMagic => Some(FPartcloneVersion)
    case FPartcloneVersion => Some(FImageVersion)
    case FImageVersion => Some(FEndianess)
    case FEndianess => Some(FFilesystemType)
    case FFilesystemType => Some(FDeviceSize)
    case FDeviceSize => Some(FTotalBlock)
    case FTotalBlock => Some(FUsedBlock)
    case FUsedBlock => Some(FBitmapSize)
    case FBitmapSize => Some(FBlockSize)
    case FBlockSize => Some(FFeatureSize)
    case FFeatureSize => Some(FImageVersionBinary)
    case FImageVersionBinary => Some(FCpuBits)
    case FCpuBits => Some(FChecksumMode)
    case FChecksumMode => Some(FChecksumSize)
    case FChecksumSize => Some(FBlocksPerChecksum)
    case FBlocksPerChecksum => Some(FReseedChecksum)
    case FReseedChecksum => Some(FBitmapMode)
    case FBitmapMode => Some(FCrc)
    case FCrc => None
  }

  /** No padding: the first field starts at byte 0, each further field starts
      where the previous one ends, and the last one ends at HEADER_SIZE. */
  lemma LemmaPacked()
    ensures Offset(FMagic) == 0
    ensures forall f :: Next(f).Some? ==> Offset(Next(f).value) == Offset(f) + Width(f)
    ensures Offset(FCrc) + Width(FCrc) == HEADER_SIZE
  {
  }

  /** Position of a field in declaration order. */
  function Index(f: Field): (k: nat)
    ensures k <= 18
  {
    match f
    case FMagic => 0
    case FPartcloneVersion => 1
    case FImageVersion => 2
    case FEndianess => 3
    case FFilesystemType => 4
    case FDeviceSize => 5
    case FTotalBlock => 6
    case FUsedBlock => 7
    case FBitmapSize => 8
    case FBlockSize => 9
    case FFeatureSize => 10
    case FImageVersionBinary => 11
    case FCpuBits => 12
    case FChecksumMode => 13
    case FChecksumSize => 14
    case FBlocksPerChecksum => 15
    case FReseedChecksum => 16
    case FBitmapMode => 17
    case FCrc => 18
  }

  /** Total width of `f` and every field declared after it. */
  function WidthFrom(f: Field): nat
    decreases 18 - Index(f)
  {
    Width(f) + match Next(f)
      case Some(g) => LemmaNextIndex(f); WidthFrom(g)
      case None => 0
  }

  lemma LemmaNextIndex(f: Field)
    ensures Next(f).Some? ==> Index(Next(f).value) == Index(f) + 1
  {
  }

  /** The fields from `f` on fill the record from `f`'s offset to its end. */
  lemma {:induction false} LemmaFieldsFillRecord(f: Field)
    ensures Offset(f) + WidthFrom(f) == HEADER_SIZE
    decreases 18 - Index(f)
  {
    LemmaPacked();
    LemmaNextIndex(f);
    if Next(f).Some? {
      LemmaFieldsFillRecord(Next(f).value);
    }
  }

  /** The record's size is the sum of the widths of all its fields. */
  lemma LemmaSizeIsSumOfWidths()
    ensures WidthFrom(FMagic) == HEADER_SIZE
  {
    LemmaFieldsFillRecord(FMagic);
  }

  /** The bytes field `f` of `h` occupies in the record. */
  function FieldBytes(h: Header, f: Field): seq<u8> {
    match f
    case FMagic => h.head.magic
    case FPartcloneVersion => h.head.partcloneVersion
    case FImageVersion => h.head.imageVersion
    case FEndianess => ToLE(h.head.endianess, 2)
    case FFilesystemType => h.fsInfo.filesystemType
    case FDeviceSize => ToLE(h.fsInfo.deviceSize, 8)
    case FTotalBlock => ToLE(h.fsInfo.totalBlock, 8)
    case FUsedBlock => ToLE(h.fsInfo.usedBlock, 8)
    case FBitmapSize => ToLE(h.fsInfo.bitmapSize, 8)
    case FBlockSize => ToLE(h.fsInfo.blockSize, 4)
    case FFeatureSize => ToLE(h.options.featureSize, 4)
    case FImageVersionBinary => ToLE(h.options.imageVersionBinary, 2)
    case FCpuBits => ToLE(h.options.cpuBits, 2)
    case FChecksumMode => ToLE(h.options.checksumMode, 2)
    case FChecksumSize => ToLE(h.options.checksumSize, 2)
    case FBlocksPerChecksum => ToLE(h.options.blocksPerChecksum, 4)
    case FReseedChecksum => ToLE(h.options.reseedChecksum, 1)
    case FBitmapMode => ToLE(h.options.bitmapMode, 1)
    case FCrc => ToLE(h.crc, 4)
  }

  /** The slice of a 110-byte record that holds field `f`. */
  function FieldSlice(b: seq<u8>, f: Field): seq<u8>
    requires |b| == HEADER_SIZE
  {
    b[Offset(f)..Offset(f) + Width(f)]
  }

  // Splitting a concatenation back into its parts. Stated over abstract
  // sequences so that the solver never unfolds the field encoders.

  lemma LemmaSplit4(a: seq<u8>, b: seq<u8>, c: seq<u8>, d: seq<u8>)
    ensures var s := a + b + c + d;
      && s[0..|a|] == a
      && s[|a|..|a| + |b|] == b
      && s[|a| + |b|..|a| + |b| + |c|] == c
      && s[|a| + |b| + |c|..] == d
  {
  }

  lemma LemmaSplit6(a: seq<u8>, b: seq<u8>, c: seq<u8>, d: seq<u8>, e: seq<u8>, f: seq<u8>)
    ensures var s := a + b + c + d + e + f;
      && s[0..|a|] == a
      && s[|a|..|a| + |b|] == b
      && s[|a| + |b|..|a| + |b| + |c|] == c
      && s[|a| + |b| + |c|..|a| + |b| + |c| + |d|] == d
      && s[|a| + |b| + |c| + |d|..|a| + |b| + |c| + |d| + |e|] == e
      && s[|a| + |b| + |c| + |d| + |e|..] == f
  {
  }

  lemma LemmaSplit8(a: seq<u8>, b: seq<u8>, c: seq<u8>, d: seq<u8>, e: seq<u8>, f: seq<u8>, g: seq<u8>, h: seq<u8>)
    ensures var s := a + b + c + d + e + f + g + h;
      && s[0..|a|] == a
      && s[|a|..|a| + |b|] == b
      && s[|a| + |b|..|a| + |b| + |c|] == c
      && s[|a| + |b| + |c|..|a| + |b| + |c| + |d|] == d
      && s[|a| + |b| + |c| + |d|..|a| + |b| + |c| + |d| + |e|] == e
      && s[|a| + |b| + |c| + |d| + |e|..|a| + |b| + |c| + |d| + |e| + |f|] == f
      && s[|a| + |b| + |c| + |d| + |e| + |f|..|a| + |b| + |c| + |d| + |e| + |f| + |g|] == g
      && s[|a| + |b| + |c| + |d| + |e| + |f| + |g|..] == h
  {
  }

  // Each sub-record is encoded as the concatenation of its fields and decoded
  // by slicing at the fields' offsets within the sub-record.

  function EncodeHead(x: ImageHead): (r: seq<u8>)
    requires |x.magic| == 16 && |x.partcloneVersion| == 14 && |x.imageVersion| == 4
    ensures |r| == 36
  {
    LemmaPow256Widths();
    x.magic + x.partcloneVersion + x.imageVersion + ToLE(x.endianess, 2)
  }

  function DecodeHead(b: seq<u8>): ImageHead
    requires |b| == 36
  {
    LemmaPow256Widths();
    ImageHead(b[0..16], b[16..30], b[30..34], FromLE(b[34..36]))
  }

  function EncodeFsInfo(x: FileSystemInfo): (r: seq<u8>)
    requires |x.filesystemType| == 16
    ensures |r| == 52
  {
    LemmaPow256Widths();
    x.filesystemType + ToLE(x.deviceSize, 8) + ToLE(x.totalBlock, 8) + ToLE(x.usedBlock, 8)
      + ToLE(x.bitmapSize, 8) + ToLE(x.blockSize, 4)
  }

  function DecodeFsInfo(b: seq<u8>): FileSystemInfo
    requires |b| == 52
  {
    LemmaPow256Widths();
    FileSystemInfo(b[0..16], FromLE(b[16..24]), FromLE(b[24..32]), FromLE(b[32..40]),
      FromLE(b[40..48]), FromLE(b[48..52]))
  }

  function EncodeOptions(x: ImageOptions): (r: seq<u8>)
    ensures |r| == 18
  {
    LemmaPow256Widths();
    ToLE(x.featureSize, 4) + ToLE(x.imageVersionBinary, 2) + ToLE(x.cpuBits, 2)
      + ToLE(x.checksumMode, 2) + ToLE(x.checksumSize, 2) + ToLE(x.blocksPerChecksum, 4)
      + ToLE(x.reseedChecksum, 1) + ToLE(x.bitmapMode, 1)
  }

  function DecodeOptions(b: seq<u8>): ImageOptions
    requires |b| == 18
  {
    LemmaPow256Widths();
    ImageOptions(FromLE(b[0..4]), FromLE(b[4..6]), FromLE(b[6..8]), FromLE(b[8..10]),
      FromLE(b[10..12]), FromLE(b[12..16]), FromLE(b[16..17]), FromLE(b[17..18]))
  }

  /** The 110 bytes of a header, as `struct image_header` lays them out. */
  function Encode(h: Header): (r: seq<u8>)
    requires h.WellFormed()
    ensures |r| == HEADER_SIZE
  {
    LemmaPow256Widths();
    EncodeHead(h.head) + EncodeFsInfo(h.fsInfo) + EncodeOptions(h.options) + ToLE(h.crc, 4)
  }

  /** The header a buffer holds, or None when it is not exactly one record long. */
  function Decode(b: seq<u8>): (r: Option<Header>)
    ensures r.Some? <==> |b| == HEADER_SIZE
    ensures r.Some? ==> r.value.WellFormed()
  {
    if |b| != HEADER_SIZE then None
    else
      LemmaPow256Widths();
      Some(Header(DecodeHead(b[0..36]), DecodeFsInfo(b[36..88]), DecodeOptions(b[88..106]), FromLE(b[106..110])))
  }

  /** The four sub-records of an encoded header, at bytes 0, 36, 88 and 106. */
  lemma LemmaEncodeGroups(h: Header)
    requires h.WellFormed()
    ensures Encode(h)[0..36] == EncodeHead(h.head)
    ensures Encode(h)[36..88] == EncodeFsInfo(h.fsInfo)
    ensures Encode(h)[88..106] == EncodeOptions(h.options)
    ensures Encode(h)[106..110] == ToLE(h.crc, 4)
  {
    LemmaPow256Widths();
    var a, b, c, d := EncodeHead(h.head), EncodeFsInfo(h.fsInfo), EncodeOptions(h.options), ToLE(h.crc, 4);
    assert Encode(h) == a + b + c + d;
    LemmaSplit4(a, b, c, d);
  }

  /** A sequence is the concatenation of its slices at any cut points. */
  lemma LemmaJoin4(s: seq<u8>, i: nat, j: nat, k: nat)
    requires i <= j <= k <= |s|
    ensures s == s[0..i] + s[i..j] + s[j..k] + s[k..]
  {
  }

  lemma LemmaJoin6(s: seq<u8>, i: nat, j: nat, k: nat, l: nat, m: nat)
    requires i <= j <= k <= l <= m <= |s|
    ensures s == s[0..i] + s[i..j] + s[j..k] + s[k..l] + s[l..m] + s[m..]
  {
  }

  lemma LemmaJoin8(s: seq<u8>, i: nat, j: nat, k: nat, l: nat, m: nat, n: nat, o: nat)
    requires i <= j <= k <= l <= m <= n <= o <= |s|
    ensures s == s[0..i] + s[i..j] + s[j..k] + s[k..l] + s[l..m] + s[m..n] + s[n..o] + s[o..]
  {
  }

  lemma LemmaHeadLayout(x: ImageHead)
    requires |x.magic| == 16 && |x.partcloneVersion| == 14 && |x.imageVersion| == 4
    ensures var b := EncodeHead(x);
      b[0..16] == x.magic && b[16..30] == x.partcloneVersion && b[30..34] == x.imageVersion
      && b[34..36] == ToLE(x.endianess, 2)
  {
    LemmaPow256Widths();
    var e := ToLE(x.endianess, 2);
    assert EncodeHead(x) == x.magic + x.partcloneVersion + x.imageVersion + e;
    LemmaSplit4(x.magic, x.partcloneVersion, x.imageVersion, e);
  }

  lemma LemmaFsInfoLayout(x: FileSystemInfo)
    requires |x.filesystemType| == 16
    ensures var b := EncodeFsInfo(x);
      b[0..16] == x.filesystemType && b[16..24] == ToLE(x.deviceSize, 8)
      && b[24..32] == ToLE(x.totalBlock, 8) && b[32..40] == ToLE(x.usedBlock, 8)
      && b[40..48] == ToLE(x.bitmapSize, 8) && b[48..52] == ToLE(x.blockSize, 4)
  {
    LemmaPow256Widths();
    var a, b, c, d, e := ToLE(x.deviceSize, 8), ToLE(x.totalBlock, 8), ToLE(x.usedBlock, 8),
      ToLE(x.bitmapSize, 8), ToLE(x.blockSize, 4);
    assert EncodeFsInfo(x) == x.filesystemType + a + b + c + d + e;
    LemmaSplit6(x.filesystemType, a, b, c, d, e);
  }

  lemma LemmaOptionsLayout(x: ImageOptions)
    ensures var b := EncodeOptions(x);
      b[0..4] == ToLE(x.featureSize, 4) && b[4..6] == ToLE(x.imageVersionBinary, 2)
      && b[6..8] == ToLE(x.cpuBits, 2) && b[8..10] == ToLE(x.checksumMode, 2)
      && b[10..12] == ToLE(x.checksumSize, 2) && b[12..16] == ToLE(x.blocksPerChecksum, 4)
      && b[16..17] == ToLE(x.reseedChecksum, 1) && b[17..18] == ToLE(x.bitmapMode, 1)
  {
    LemmaPow256Widths();
    var a, b, c, d := ToLE(x.featureSize, 4), ToLE(x.imageVersionBinary, 2), ToLE(x.cpuBits, 2),
      ToLE(x.checksumMode, 2);
    var e, f, g, k := ToLE(x.checksumSize, 2), ToLE(x.blocksPerChecksum, 4),
      ToLE(x.reseedChecksum, 1), ToLE(x.bitmapMode, 1);
    assert EncodeOptions(x) == a + b + c + d + e + f + g + k;
    LemmaSplit8(a, b, c, d, e, f, g, k);
  }

  /** Decoding an encoded header gives the header back. */
  lemma LemmaDecodeEncode(h: Header)
    requires h.WellFormed()
    ensures Decode(Encode(h)) == Some(h)
  {
    LemmaPow256Widths();
    LemmaEncodeGroups(h);
    LemmaHeadLayout(h.head);
    LemmaFsInfoLayout(h.fsInfo);
    LemmaOptionsLayout(h.options);
    LemmaFromToLE(h.head.endianess, 2);
    LemmaFromToLE(h.fsInfo.deviceSize, 8);
    LemmaFromToLE(h.fsInfo.totalBlock, 8);
    LemmaFromToLE(h.fsInfo.usedBlock, 8);
    LemmaFromToLE(h.fsInfo.bitmapSize, 8);
    LemmaFromToLE(h.fsInfo.blockSize, 4);
    LemmaFromToLE(h.options.featureSize, 4);
    LemmaFromToLE(h.options.imageVersionBinary, 2);
    LemmaFromToLE(h.options.cpuBits, 2);
    LemmaFromToLE(h.options.checksumMode, 2);
    LemmaFromToLE(h.options.checksumSize, 2);
    LemmaFromToLE(h.options.blocksPerChecksum, 4);
    LemmaFromToLE(h.options.reseedChecksum, 1);
    LemmaFromToLE(h.options.bitmapMode, 1);
    LemmaFromToLE(h.crc, 4);
  }

  lemma LemmaHeadRoundTrip(b: seq<u8>)
    requires |b| == 36
    ensures EncodeHead(DecodeHead(b)) == b
  {
    LemmaPow256Widths();
    LemmaToFromLE(b[34..36]);
    LemmaJoin4(b, 16, 30, 34);
  }

  lemma LemmaFsInfoRoundTrip(b: seq<u8>)
    requires |b| == 52
    ensures EncodeFsInfo(DecodeFsInfo(b)) == b
  {
    LemmaPow256Widths();
    LemmaToFromLE(b[16..24]);
    LemmaToFromLE(b[24..32]);
    LemmaToFromLE(b[32..40]);
    LemmaToFromLE(b[40..48]);
    LemmaToFromLE(b[48..52]);
    LemmaJoin6(b, 16, 24, 32, 40, 48);
  }

  lemma LemmaOptionsRoundTrip(b: seq<u8>)
    requires |b| == 18
    ensures EncodeOptions(DecodeOptions(b)) == b
  {
    LemmaPow256Widths();
    LemmaToFromLE(b[0..4]);
    LemmaToFromLE(b[4..6]);
    LemmaToFromLE(b[6..8]);
    LemmaToFromLE(b[8..10]);
    LemmaToFromLE(b[10..12]);
    LemmaToFromLE(b[12..16]);
    LemmaToFromLE(b[16..17]);
    LemmaToFromLE(b[17..18]);
    LemmaJoin8(b, 4, 6, 8, 10, 12, 16, 17);
  }

  /** Every 110-byte buffer is the encoding of the header it decodes to, so
      the packed layout is a bijection between buffers and well-formed headers. */
  lemma LemmaEncodeDecode(b: seq<u8>)
    requires |b| == HEADER_SIZE
    ensures Decode(b).Some? && Encode(Decode(b).value) == b
  {
    LemmaPow256Widths();
    var hb, fb, ob, cb := b[0..36], b[36..88], b[88..106], b[106..110];
    var h := Decode(b).value;
    assert h.head == DecodeHead(hb) && h.fsInfo == DecodeFsInfo(fb);
    assert h.options == DecodeOptions(ob) && h.crc == FromLE(cb);
    LemmaHeadRoundTrip(hb);
    LemmaFsInfoRoundTrip(fb);
    LemmaOptionsRoundTrip(ob);
    LemmaToFromLE(cb);
    assert Encode(h) == hb + fb + ob + cb;
    LemmaJoin4(b, 36, 88, 106);
  }

  /** In an encoded header every field sits at the offset the table gives it. */
  lemma LemmaEncodeLayout(h: Header)
    requires h.WellFormed()
    ensures forall f :: FieldSlice(Encode(h), f) == FieldBytes(h, f)
  {
    forall f ensures FieldSlice(Encode(h), f) == FieldBytes(h, f) {
      LemmaEncodeField(h, f);
    }
  }

  lemma LemmaEncodeField(h: Header, f: Field)
    requires h.WellFormed()
    ensures FieldSlice(Encode(h), f) == FieldBytes(h, f)
  {
    var b := Encode(h);
    LemmaEncodeGroups(h);
    match f
    case FMagic =>
      LemmaHeadLayout(h.head);
      LemmaSliceOfSlice(b, 0, 36, 0, 16);
    case FPartcloneVersion =>
      LemmaHeadLayout(h.head);
      LemmaSliceOfSlice(b, 0, 36, 16, 14);
    case FImageVersion =>
      LemmaHeadLayout(h.head);
      LemmaSliceOfSlice(b, 0, 36, 30, 4);
    case FEndianess =>
      LemmaHeadLayout(h.head);
      LemmaSliceOfSlice(b, 0, 36, 34, 2);
    case FFilesystemType =>
      LemmaFsInfoLayout(h.fsInfo);
      LemmaSliceOfSlice(b, 36, 88, 36, 16);
    case FDeviceSize =>
      LemmaFsInfoLayout(h.fsInfo);
      LemmaSliceOfSlice(b, 36, 88, 52, 8);
    case FTotalBlock =>
      LemmaFsInfoLayout(h.fsInfo);
      LemmaSliceOfSlice(b, 36, 88, 60, 8);
    case FUsedBlock =>
      LemmaFsInfoLayout(h.fsInfo);
      LemmaSliceOfSlice(b, 36, 88, 68, 8);
    case FBitmapSize =>
      LemmaFsInfoLayout(h.fsInfo);
      LemmaSliceOfSlice(b, 36, 88, 76, 8);
    case FBlockSize =>
      LemmaFsInfoLayout(h.fsInfo);
      LemmaSliceOfSlice(b, 36, 88, 84, 4);
    case FFeatureSize =>
      LemmaOptionsLayout(h.options);
      LemmaSliceOfSlice(b, 88, 106, 88, 4);
    case FImageVersionBinary =>
      LemmaOptionsLayout(h.options);
      LemmaSliceOfSlice(b, 88, 106, 92, 2);
    case FCpuBits =>
      LemmaOptionsLayout(h.options);
      LemmaSliceOfSlice(b, 88, 106, 94, 2);
    case FChecksumMode =>
      LemmaOptionsLayout(h.options);
      LemmaSliceOfSlice(b, 88, 106, 96, 2);
    case FChecksumSize =>
      LemmaOptionsLayout(h.options);
      LemmaSliceOfSlice(b, 88, 106, 98, 2);
    case FBlocksPerChecksum =>
      LemmaOptionsLayout(h.options);
      LemmaSliceOfSlice(b, 88, 106, 100, 4);
    case FReseedChecksum =>
      LemmaOptionsLayout(h.options);
      LemmaSliceOfSlice(b, 88, 106, 104, 1);
    case FBitmapMode =>
      LemmaOptionsLayout(h.options);
      LemmaSliceOfSlice(b, 88, 106, 105, 1);
    case FCrc =>
  }

  lemma LemmaSliceOfSlice(b: seq<u8>, lo: nat, hi: nat, o: nat, w: nat)
    requires lo <= o && o + w <= hi <= |b|
    ensures b[o..o + w] == b[lo..hi][o - lo..o - lo + w]
  {
    var inner := b[lo..hi][o - lo..o - lo + w];
    assert forall k | 0 <= k < w :: inner[k] == b[o..o + w][k];
  }

  /** Each field of a decoded header is read from the bytes at its offset. */
  lemma LemmaDecodeLayout(b: seq<u8>)
    requires |b| == HEADER_SIZE
    ensures Decode(b).Some?
    ensures forall f :: FieldBytes(Decode(b).value, f) == FieldSlice(b, f)
  {
    LemmaEncodeDecode(b);
    LemmaEncodeLayout(Decode(b).value);
  }

  // The on-disk trailer of the header: the usage bitmap, one bit per block
  // rounded up to whole bytes, then a crc32; the block region follows.

  /** Size in bytes of the bitmap as stored in the image: the fewest whole
      bytes that hold one bit per block. */
  function OnDiskBitmapSize(totalBlock: nat): (r: nat)
    ensures r * 8 >= totalBlock
    ensures r * 8 < totalBlock + 8
  {
    (totalBlock + 7) / 8
  }

  /** Whether the bitmap the image stores right after the header marks block
      `k` used: bit k % 8 of its byte k / 8. */
  predicate StoredUsed(image: seq<u8>, k: nat)
    requires HEADER_SIZE + k / 8 < |image|
  {
    Digit(image[HEADER_SIZE + k / 8], k % 8) == 1
  }

  /** Offset of the first stored block: after the header, the bitmap and the
      bitmap's crc32. */
  function OnDiskBlockStart(totalBlock: nat): nat {
    HEADER_SIZE + OnDiskBitmapSize(totalBlock) + CRC_SIZE
  }
}

=== FILE: outcomes.dfy ===
/** Failure-carrying values shared by the filter model. */
module Outcomes {

  /** A value that may be absent: a null pointer, or a read that failed. */
  datatype Option<+T> = None | Some(value: T)

  /** Why the filter answered -1. */
  datatype Error =
    | ProviderError     // the underlying plugin's pread reported an error
    | SearchOutOfRange  // the block search ran past total_block or the bitmap

  /** The outcome of a filter callback: a value, or the error behind a -1 return. */
  datatype Result<+T> = Ok(value: T) | Err(error: Error)
}

=== FILE: partclone_nbd.dfy ===
/** The nbdkit partclone filter: the state `partclone_prepare` builds once per
    connection, the size it reports, and the translation `partclone_pread`
    performs from reads of the virtual device to reads of the image. */
module PartcloneFilter {
  import opened Outcomes
  import opened Bytes
  import opened Image
  import opened Bitmap

  /** The underlying plugin, serving the image file. A read fails when it runs
      past the end of the data, or when the plugin reports an I/O error for
      it: `failing` holds the (offset, length) requests that meet one. */
  datatype Provider = Provider(data: seq<u8>, failing: set<(nat, nat)>)

  predicate ReadOk(p: Provider, off: nat, len: nat) {
    && off + len <= |p.data|
    && (off, len) !in p.failing
  }

  function ProviderRead(p: Provider, off: nat, len: nat): (r: Option<seq<u8>>)
    ensures r.Some? <==> ReadOk(p, off, len)
    ensures r.Some? ==> |r.value| == len
  {
    if ReadOk(p, off, len) then Some(p.data[off..off + len]) else None
  }

  /** The per-connection state; read-only once prepared. `size` is the size
      of the image file as the plugin reports it. */
  datatype Handle = Handle(header: Header, bitmap: seq<u64>, blockStart: u64, bitmapSize: u64, size: u64)

  function TotalBlock(h: Handle): u64 { h.header.fsInfo.totalBlock }
  function BlockSize(h: Handle): u32 { h.header.fsInfo.blockSize }
  function BlocksPerChecksum(h: Handle): u32 { h.header.options.blocksPerChecksum }

  // ---------------------------------------------------------------------
  // partclone_prepare

  /** Bytes allocated for the in-memory bitmap: whole 64-bit words, computed
      in uint64_t, so that a block count within 63 of 2^64 wraps to zero. */
  function BitmapSize(totalBlock: u64): (r: u64)
    ensures r % 8 == 0
    ensures r < 0x2000_0000_0000_0000
    ensures totalBlock + 63 < U64_MODULUS ==> r / 8 == WordsFor(totalBlock)
    ensures totalBlock + 63 >= U64_MODULUS ==> r == 0
  {
    Wrap64(totalBlock + 63) / 64 * 8
  }

  /** Where the filter expects the first stored block: after the header, the
      word-rounded bitmap and the bitmap's crc32. */
  function BlockStart(totalBlock: u64): (r: u64)
    ensures r % 8 == (HEADER_SIZE + CRC_SIZE) % 8
    ensures r >= HEADER_SIZE + CRC_SIZE
    ensures totalBlock + 63 < U64_MODULUS ==> r == HEADER_SIZE + 8 * WordsFor(totalBlock) + CRC_SIZE
  {
    HEADER_SIZE + BitmapSize(totalBlock) + CRC_SIZE
  }

  /** Eight bytes read as a uint64_t on a little-endian host. */
  function WordOf(s: seq<u8>): (r: u64)
    requires |s| == 8
    ensures forall b :: 0 <= b < 64 ==> (WordBit(r, b) <==> Digit(s[b / 8], b % 8) == 1)
  {
    LemmaPow256Widths();
    var r := FromLE(s);
    forall b | 0 <= b < 64
      ensures WordBit(r, b) <==> Digit(s[b / 8], b % 8) == 1
    {
      LemmaDigitOfLE(s, b);
    }
    r
  }

  /** Bytes read into a uint64_t array: word k is bytes 8k .. 8k+7, so bit
      k of the array is bit k % 8 of byte k / 8. */
  function WordsOf(bytes: seq<u8>): (r: seq<u64>)
    requires |bytes| % 8 == 0
    ensures |r| * 8 == |bytes|
    ensures forall k :: 0 <= k < 8 * |bytes| ==>
      (k / 64 < |r| && (WordBit(r[k / 64], k % 64) <==> Digit(bytes[k / 8], k % 8) == 1))
  {
    var r := seq(|bytes| / 8, k requires 0 <= k < |bytes| / 8 => WordOf(bytes[8 * k..8 * k + 8]));
    forall k | 0 <= k < 8 * |bytes|
      ensures k / 64 < |r| && (WordBit(r[k / 64], k % 64) <==> Digit(bytes[k / 8], k % 8) == 1)
    {
      LemmaBitPosition(k);
      var q, slice := k / 64, bytes[8 * (k / 64)..8 * (k / 64) + 8];
      assert r[q] == WordOf(slice);
      assert slice[(k % 64) / 8] == bytes[k / 8];
    }
    r
  }

  /** Bit k of an array of 8-byte words is bit (k % 64) % 8 of byte
      (k % 64) / 8 of word k / 64: byte k / 8 overall. */
  lemma LemmaBitPosition(k: nat)
    ensures k / 8 == 8 * (k / 64) + (k % 64) / 8
    ensures k % 8 == (k % 64) % 8
  {
  }

  /** The provider's size, then the header at offset 0, then the word-rounded
      bitmap right after the header; a failed read fails the whole call. */
  function Prepare(p: Provider): (r: Result<Handle>)
    requires |p.data| < 0x8000_0000_0000_0000
    ensures r.Ok? <==>
      && ReadOk(p, 0, HEADER_SIZE)
      && ReadOk(p, HEADER_SIZE, BitmapSize(Decode(p.data[0..HEADER_SIZE]).value.fsInfo.totalBlock))
    ensures r.Err? ==> r.error == ProviderError
    ensures r.Ok? ==>
      var h := r.value;
      && Decode(p.data[0..HEADER_SIZE]) == Some(h.header)
      && h.size == |p.data|
      && h.bitmapSize == BitmapSize(TotalBlock(h))
      && |h.bitmap| * 8 == h.bitmapSize
      && h.bitmap == WordsOf(p.data[HEADER_SIZE..HEADER_SIZE + h.bitmapSize])
      && h.blockStart == BlockStart(TotalBlock(h))
  {
    var size := |p.data|;
    match ProviderRead(p, 0, HEADER_SIZE)
    case None => Err(ProviderError)
    case Some(headerBytes) =>
      var header := Decode(headerBytes).value;
      var bitmapSize := BitmapSize(header.fsInfo.totalBlock);
      match ProviderRead(p, HEADER_SIZE, bitmapSize)
      case None => Err(ProviderError)
      case Some(bitmapBytes) =>
        Ok(Handle(header, WordsOf(bitmapBytes), BlockStart(header.fsInfo.totalBlock), bitmapSize, size))
  }

  /** The word-rounded bitmap is the on-disk bitmap rounded up to a multiple
      of 8 bytes: never smaller, less than 8 bytes larger, and the same size
      exactly when ceil(total_block / 8) is already a multiple of 8. */
  lemma LemmaBitmapSizeVsOnDisk(totalBlock: u64)
    requires totalBlock + 63 < U64_MODULUS
    ensures BitmapSize(totalBlock) >= OnDiskBitmapSize(totalBlock)
    ensures BitmapSize(totalBlock) < OnDiskBitmapSize(totalBlock) + 8
    ensures BitmapSize(totalBlock) == OnDiskBitmapSize(totalBlock) <==> OnDiskBitmapSize(totalBlock) % 8 == 0
  {
    var w, d := WordsFor(totalBlock), OnDiskBitmapSize(totalBlock);
    assert w * 64 >= totalBlock && w * 64 < totalBlock + 64;
    assert BitmapSize(totalBlock) == 8 * w;
  }

  /** So the filter looks for the first block exactly where the image stores
      it only when ceil(total_block / 8) is a multiple of 8; otherwise it
      looks up to 7 bytes further on. */
  lemma LemmaBlockStartVsOnDisk(totalBlock: u64)
    requires totalBlock + 63 < U64_MODULUS
    ensures OnDiskBlockStart(totalBlock) <= BlockStart(totalBlock) < OnDiskBlockStart(totalBlock) + 8
    ensures BlockStart(totalBlock) == OnDiskBlockStart(totalBlock) <==> OnDiskBitmapSize(totalBlock) % 8 == 0
  {
    LemmaBitmapSizeVsOnDisk(totalBlock);
  }

  /** What pread relies on: a block size and a checksum stride it can divide
      by, and a bitmap holding a bit for every block. */
  predicate Ready(h: Handle) {
    && BlockSize(h) > 0
    && BlocksPerChecksum(h) > 0
    && |h.bitmap| >= WordsFor(TotalBlock(h))
  }

  /** test_bit(k, bitmap, total_block) > 0: block k exists and its bit is set. */
  predicate Used(h: Handle, k: u64)
    requires Ready(h)
    ensures Used(h, k) ==> k < TotalBlock(h)
    ensures k < TotalBlock(h) ==> k / 64 < |h.bitmap|
    ensures k < TotalBlock(h) ==> (Used(h, k) <==> WordBit(h.bitmap[k / 64], k % 64))
  {
    TestBit(k, Some(h.bitmap), TotalBlock(h)) > 0
  }

  /** Unless the word count wrapped, the bitmap a prepared handle holds is
      the one the image stores: test_bit reports a block below total_block
      used exactly when the image's bitmap byte for it has its bit set. */
  lemma LemmaPreparedBitmapIsStored(p: Provider, k: nat)
    requires |p.data| < 0x8000_0000_0000_0000
    requires Prepare(p).Ok?
    requires TotalBlock(Prepare(p).value) + 63 < U64_MODULUS
    requires k < TotalBlock(Prepare(p).value)
    ensures HEADER_SIZE + k / 8 < |p.data|
    ensures TestBit(k, Some(Prepare(p).value.bitmap), TotalBlock(Prepare(p).value)) == 1
      <==> StoredUsed(p.data, k)
  {
    var h := Prepare(p).value;
    var bytes := p.data[HEADER_SIZE..HEADER_SIZE + h.bitmapSize];
    assert k < 8 * |bytes|;
    assert bytes[k / 8] == p.data[HEADER_SIZE + k / 8];
  }

  /** A prepared handle holds a bitmap word for every block unless the word
      count wrapped, so pread can run on it whenever the header's block size
      and checksum stride are non-zero. */
  lemma LemmaPreparedIsReady(p: Provider)
    requires |p.data| < 0x8000_0000_0000_0000
    requires Prepare(p).Ok?
    requires TotalBlock(Prepare(p).value) + 63 < U64_MODULUS
    ensures var h := Prepare(p).value;
      Ready(h) <==> BlockSize(h) > 0 && BlocksPerChecksum(h) > 0
  {
  }

  // ---------------------------------------------------------------------
  // partclone_get_size

  /** The size of the virtual device: the header's device_size, returned as
      an int64_t, so that a stored size of 2^63 or more comes back negative
      (which nbdkit takes for a failure). */
  function GetSize(h: Handle): (r: int)
    ensures -0x8000_0000_0000_0000 <= r < 0x8000_0000_0000_0000
    ensures r >= 0 <==> h.header.fsInfo.deviceSize < 0x8000_0000_0000_0000
    ensures r % U64_MODULUS == h.header.fsInfo.deviceSize
  {
    var size := h.header.fsInfo.deviceSize;
    if size < 0x8000_0000_0000_0000 then size else size - U64_MODULUS
  }

  /** The reported size is the device_size field stored little-endian at
      bytes 52 .. 59 of the image, read as a two's-complement int64_t. */
  lemma LemmaVirtualSizeIsStoredDeviceSize(p: Provider)
    requires |p.data| < 0x8000_0000_0000_0000
    requires Prepare(p).Ok?
    ensures GetSize(Prepare(p).value) % U64_MODULUS == FromLE(p.data[52..60])
    ensures GetSize(Prepare(p).value) >= 0 ==> GetSize(Prepare(p).value) == FromLE(p.data[52..60])
  {
    var b := p.data[0..HEADER_SIZE];
    LemmaPow256Widths();
    LemmaDecodeLayout(b);
    var h := Decode(b).value;
    assert FieldBytes(h, FDeviceSize) == FieldSlice(b, FDeviceSize);
    LemmaSliceOfSlice(p.data, 0, HEADER_SIZE, 52, 8);
    assert ToLE(h.fsInfo.deviceSize, 8) == p.data[52..60];
    LemmaFromToLE(h.fsInfo.deviceSize, 8);
  }
}

=== FILE: pread.dfy ===
/** partclone_pread: the search loop, which steps a position from the
    physical block_start towards the virtual offs by block_size and counts the
    used blocks among the indices it steps over (lines 120-127), then the loop that zero-fills or reads each block-sized
    chunk of the caller's buffer (lines 133-160). */
module Pread {
  import opened Outcomes
  import opened Bytes
  import opened Bitmap
  import opened PartcloneFilter

  // ---------------------------------------------------------------------
  // The search loop, lines 120-127

  /** Number of used blocks among indices a .. b-1. */
  function UsedIn(h: Handle, a: nat, b: nat): nat
    requires Ready(h)
    requires b <= TotalBlock(h)
    decreases b - a
  {
    if a >= b then 0 else (if Used(h, a) then 1 else 0) + UsedIn(h, a + 1, b)
  }

  /** The first index the search loop refuses to examine: it returns -1 once
      j reaches total_block or bitmap_size * 64 (a uint64_t product). */
  function SearchLimit(h: Handle): (r: nat)
    ensures r <= TotalBlock(h) && r <= Wrap64(h.bitmapSize * 64)
    ensures r == TotalBlock(h) || r == Wrap64(h.bitmapSize * 64)
  {
    var bits := Wrap64(h.bitmapSize * 64);
    if TotalBlock(h) <= bits then TotalBlock(h) else bits
  }

  /** The search loop's `i` after `n` steps: block_start advanced `n` times
      by block_size in uint64_t. */
  function Position(h: Handle, n: nat): u64 {
    if n == 0 then h.blockStart else Wrap64(Position(h, n - 1) + BlockSize(h))
  }

  /** The search loop's exit state: its trip count and blocks_before_offs. */
  datatype Found = Found(trips: nat, blocksBefore: nat)

  /** Lines 120-127 from the state (i, j, blocks_before_offs): step i by
      block_size while i < offs, counting used blocks by index j. */
  function SearchFrom(h: Handle, offs: u64, i: u64, j: nat, blocksBefore: nat): (r: Option<Found>)
    requires Ready(h)
    decreases SearchLimit(h) - j
  {
    if i >= offs then Some(Found(j, blocksBefore))
    else if j >= TotalBlock(h) || j >= Wrap64(h.bitmapSize * 64) then None
    else
      SearchFrom(h, offs, Wrap64(i + BlockSize(h)), j + 1, blocksBefore + if Used(h, j) then 1 else 0)
  }

  /** One pass of the search loop body keeps the loop's state on the path
      SearchFrom follows. */
  lemma LemmaSearchStep(h: Handle, offs: u64, i: u64, j: nat, blocksBefore: nat)
    requires Ready(h)
    requires i < offs && j < TotalBlock(h) && j < Wrap64(h.bitmapSize * 64)
    requires i == Position(h, j)
    ensures j + 1 <= SearchLimit(h)
    ensures Wrap64(i + BlockSize(h)) == Position(h, j + 1)
    ensures SearchFrom(h, offs, i, j, blocksBefore)
      == SearchFrom(h, offs, Wrap64(i + BlockSize(h)), j + 1,
                    blocksBefore + if Used(h, j) then 1 else 0)
  {
  }

  /** From a state the loop reaches, a failed search means no later block
      boundary it may examine reaches offs. */
  lemma {:induction false} LemmaSearchFromFails(h: Handle, offs: u64, i: u64, j: nat, blocksBefore: nat)
    requires Ready(h)
    requires j <= SearchLimit(h)
    requires i == Position(h, j)
    requires SearchFrom(h, offs, i, j, blocksBefore).None?
    ensures forall n :: j <= n <= SearchLimit(h) ==> Position(h, n) < offs
    decreases SearchLimit(h) - j
  {
    if j < TotalBlock(h) && j < Wrap64(h.bitmapSize * 64) {
      LemmaSearchStep(h, offs, i, j, blocksBefore);
      var next := blocksBefore + if Used(h, j) then 1 else 0;
      LemmaSearchFromFails(h, offs, Wrap64(i + BlockSize(h)), j + 1, next);
    }
  }

  /** From a state the loop reaches, a successful search stops at the first
      block boundary at or past offs, having counted the used blocks on the
      way. */
  lemma {:induction false} LemmaSearchFromFinds(h: Handle, offs: u64, i: u64, j: nat, blocksBefore: nat)
    requires Ready(h)
    requires j <= SearchLimit(h)
    requires i == Position(h, j)
    requires SearchFrom(h, offs, i, j, blocksBefore).Some?
    ensures var found := SearchFrom(h, offs, i, j, blocksBefore).value;
      && j <= found.trips <= SearchLimit(h)
      && Position(h, found.trips) >= offs
      && (forall k :: j <= k < found.trips ==> Position(h, k) < offs)
      && found.blocksBefore == blocksBefore + UsedIn(h, j, found.trips)
    decreases SearchLimit(h) - j
  {
    if i < offs {
      LemmaSearchStep(h, offs, i, j, blocksBefore);
      var next := blocksBefore + if Used(h, j) then 1 else 0;
      var found := SearchFrom(h, offs, i, j, blocksBefore).value;
      assert found == SearchFrom(h, offs, Wrap64(i + BlockSize(h)), j + 1, next).value;
      LemmaSearchFromFinds(h, offs, Wrap64(i + BlockSize(h)), j + 1, next);
      assert UsedIn(h, j, found.trips) == (if Used(h, j) then 1 else 0) + UsedIn(h, j + 1, found.trips);
      assert Position(h, j) < offs;
    } else {
      assert SearchFrom(h, offs, i, j, blocksBefore).value == Found(j, blocksBefore);
    }
  }

  /** The search loop of lines 120-127 run from its initial state. It fails
      exactly when no block boundary it may examine reaches offs; otherwise it
      stops at the first one that does, having counted the used blocks among
      the indices it stepped over. */
  function BlocksBeforeOffs(h: Handle, offs: u64): (r: Option<Found>)
    requires Ready(h)
    ensures r.None? <==> forall n :: 0 <= n <= SearchLimit(h) ==> Position(h, n) < offs
    ensures r.Some? ==>
      && r.value.trips <= SearchLimit(h)
      && Position(h, r.value.trips) >= offs
      && (forall k :: 0 <= k < r.value.trips ==> Position(h, k) < offs)
      && r.value.blocksBefore == UsedIn(h, 0, r.value.trips)
      && r.value.blocksBefore <= r.value.trips
  {
    var r := SearchFrom(h, offs, h.blockStart, 0, 0);
    if r.Some? then
      LemmaSearchFromFinds(h, offs, h.blockStart, 0, 0);
      LemmaUsedInBound(h, 0, r.value.trips);
      r
    else
      LemmaSearchFromFails(h, offs, h.blockStart, 0, 0);
      r
  }

  lemma LemmaMulMonotone(a: nat, b: nat, c: nat)
    ensures a <= b ==> a * c <= b * c
  {
  }

  /** Below 2^64 the search loop's positions are exact multiples of block_size. */
  lemma {:induction false} LemmaPositionExact(h: Handle, n: nat)
    requires h.blockStart + n * BlockSize(h) < U64_MODULUS
    ensures Position(h, n) == h.blockStart + n * BlockSize(h)
  {
    if n > 0 {
      var bs := BlockSize(h);
      assert (n - 1) * bs + bs == n * bs;
      LemmaPositionExact(h, n - 1);
    }
  }

  /** At most one used block per index. */
  lemma {:induction false} LemmaUsedInBound(h: Handle, a: nat, b: nat)
    requires Ready(h)
    requires a <= b <= TotalBlock(h)
    ensures UsedIn(h, a, b) <= b - a
    decreases b - a
  {
    if a < b {
      LemmaUsedInBound(h, a + 1, b);
    }
  }

  /** Below 2^64 the loop's positions do not wrap. The search then succeeds
      exactly when offs is at most SearchLimit blocks past block_start, and it
      stops at the first block boundary, counted from block_start, at or past
      offs, having counted no more blocks than total_block. */
  lemma LemmaSearchWithoutWrap(h: Handle, offs: u64)
    requires Ready(h)
    requires h.blockStart + SearchLimit(h) * BlockSize(h) < U64_MODULUS
    ensures BlocksBeforeOffs(h, offs).Some? <==> offs <= h.blockStart + SearchLimit(h) * BlockSize(h)
    ensures BlocksBeforeOffs(h, offs).Some? ==>
      var n := BlocksBeforeOffs(h, offs).value.trips;
      && h.blockStart + n * BlockSize(h) >= offs
      && (n == 0 || h.blockStart + (n - 1) * BlockSize(h) < offs)
      && BlocksBeforeOffs(h, offs).value.blocksBefore <= n <= TotalBlock(h)
  {
    var bs, lim := BlockSize(h), SearchLimit(h);
    var r := BlocksBeforeOffs(h, offs);
    LemmaPositionExact(h, lim);
    if r.Some? {
      var n := r.value.trips;
      LemmaMulMonotone(n, lim, bs);
      LemmaPositionExact(h, n);
      assert offs <= h.blockStart + lim * bs;
      if n > 0 {
        LemmaMulMonotone(n - 1, lim, bs);
        LemmaPositionExact(h, n - 1);
        assert Position(h, n - 1) < offs;
      }
      LemmaUsedInBound(h, 0, n);
    } else {
      assert Position(h, lim) < offs;
    }
  }

  // ---------------------------------------------------------------------
  // The chunk loop, lines 132-160

  /** What pread does for one chunk of the caller's buffer: fill `len` bytes
      at `bufOff` with zeros, or read them from the image at `physOff`. */
  datatype Segment =
    | Zero(bufOff: nat, len: nat)
    | Read(bufOff: nat, len: nat, physOff: nat)

  /** read_count: a whole block, or the whole request when it is shorter. */
  function ReadCount(h: Handle, count: u32): (r: nat)
    ensures r <= count && r <= BlockSize(h)
    ensures r == count || r == BlockSize(h)
  {
    if count < BlockSize(h) then count else BlockSize(h)
  }

  lemma LemmaDivBound(a: nat, b: nat)
    requires b > 0
    ensures a / b <= a
  {
    var q := a / b;
    LemmaMulMonotone(1, b, q);
  }

  /** block_offset's initial value: the index of the block holding offs. */
  function FirstBlock(h: Handle, offs: u64): (r: u64)
    requires Ready(h)
    ensures r * BlockSize(h) <= offs < r * BlockSize(h) + BlockSize(h)
  {
    LemmaDivBound(offs, BlockSize(h));
    offs / BlockSize(h)
  }

  /** The image offset line 140 reads a used chunk from: the VIRTUAL offset of
      the chunk plus block_start plus 4 bytes per blocks_per_checksum blocks
      counted so far, all in uint64_t. */
  function PhysicalOffset(h: Handle, offs: u64, i: nat, blocksBefore: u64): (r: u64)
    requires Ready(h)
    ensures offs + i + h.blockStart + blocksBefore / BlocksPerChecksum(h) * 4 < U64_MODULUS ==>
      r == offs + i + h.blockStart + blocksBefore / BlocksPerChecksum(h) * 4
  {
    Wrap64(offs + i + h.blockStart + Wrap64(blocksBefore / BlocksPerChecksum(h) * 4))
  }

  /** In general the physical offset is that sum modulo 2^64. */
  lemma LemmaPhysicalOffsetWraps(h: Handle, offs: u64, i: nat, blocksBefore: u64)
    requires Ready(h)
    ensures PhysicalOffset(h, offs, i, blocksBefore)
      == Wrap64(offs + i + h.blockStart + blocksBefore / BlocksPerChecksum(h) * 4)
  {
    var base: nat, adjust: nat := offs + i + h.blockStart, blocksBefore / BlocksPerChecksum(h) * 4;
    LemmaWrapInner(base, adjust);
    assert PhysicalOffset(h, offs, i, blocksBefore) == Wrap64(base + Wrap64(adjust));
  }

  /** The body of the chunk loop (lines 134-159) for the chunk at buffer
      offset `i`, given block_offset and blocks_before_offs: a used block whose
      image offset is within the image is read from there, any other chunk is
      zero-filled. */
  function Step(h: Handle, count: u32, offs: u64, i: nat, blockOffset: u64, blocksBefore: u64): (r: Segment)
    requires Ready(h)
    ensures r.bufOff == i && r.len == ReadCount(h, count)
    ensures r.Read? <==> Used(h, blockOffset) && PhysicalOffset(h, offs, i, blocksBefore) <= h.size
    ensures r.Read? ==> r.physOff == PhysicalOffset(h, offs, i, blocksBefore)
  {
    var readCount := ReadCount(h, count);
    if Used(h, blockOffset) then
      var offset := PhysicalOffset(h, offs, i, blocksBefore);
      if offset > h.size then Zero(i, readCount)
      else Read(i, readCount, offset)
    else Zero(i, readCount)
  }

  /** Number of Read segments. */
  function ReadsIn(segs: seq<Segment>): nat {
    if |segs| == 0 then 0 else (if segs[0].Read? then 1 else 0) + ReadsIn(segs[1..])
  }

  lemma LemmaReadsInPrefix(first: Segment, rest: seq<Segment>, k: nat)
    requires k <= |rest|
    ensures ReadsIn(([first] + rest)[..k + 1]) == (if first.Read? then 1 else 0) + ReadsIn(rest[..k])
  {
    assert ([first] + rest)[..k + 1][1..] == rest[..k];
  }

  lemma {:induction false} LemmaReadsInAppend(segs: seq<Segment>, s: Segment)
    ensures ReadsIn(segs + [s]) == ReadsIn(segs) + if s.Read? then 1 else 0
  {
    if |segs| > 0 {
      assert (segs + [s])[1..] == segs[1..] + [s];
      LemmaReadsInAppend(segs[1..], s);
    }
  }

  /** Where the chunk loop stands before an iteration: the buffer offset i,
      the iterations run so far, and how many of them read from the image. */
  datatype Cursor = Cursor(bufOff: nat, iteration: nat, issued: nat)

  /** A loop that runs `body` once for every `stride` bytes of the buffer
      below `count`, advancing the cursor after each iteration. */
  function Unroll(body: Cursor --> Segment, stride: nat, count: nat, c: Cursor): (r: seq<Segment>)
    requires forall d :: body.requires(d)
    requires stride > 0
    ensures |r| == 0 <==> c.bufOff >= count
    decreases count - c.bufOff
  {
    if c.bufOff >= count then []
    else
      var segment := body(c);
      [segment] + Unroll(body, stride, count, Cursor(c.bufOff + stride, c.iteration + 1, c.issued + if segment.Read? then 1 else 0))
  }

  /** Iteration m of the loop runs the body at buffer offset m * stride,
      having counted the reads of the iterations before it. */
  lemma {:induction false} LemmaUnrollIndexed(body: Cursor --> Segment, stride: nat, count: nat, c: Cursor, m: nat)
    requires forall d :: body.requires(d)
    requires stride > 0
    requires m < |Unroll(body, stride, count, c)|
    ensures var r := Unroll(body, stride, count, c);
      r[m] == body(Cursor(c.bufOff + m * stride, c.iteration + m, c.issued + ReadsIn(r[..m])))
    decreases m
  {
    var r := Unroll(body, stride, count, c);
    var segment := body(c);
    var next := Cursor(c.bufOff + stride, c.iteration + 1, c.issued + if segment.Read? then 1 else 0);
    var rest := Unroll(body, stride, count, next);
    assert r == [segment] + rest;
    if m == 0 {
      assert r[..0] == [];
    } else {
      LemmaUnrollIndexed(body, stride, count, next, m - 1);
      LemmaReadsInPrefix(segment, rest, m - 1);
      assert c.bufOff + stride + (m - 1) * stride == c.bufOff + m * stride;
    }
  }

  /** The loop runs exactly as many iterations as it takes its buffer offset
      to reach count. */
  lemma {:induction false} LemmaUnrollLength(body: Cursor --> Segment, stride: nat, count: nat, c: Cursor)
    requires forall d :: body.requires(d)
    requires stride > 0
    ensures var n := |Unroll(body, stride, count, c)|;
      n > 0 ==> c.bufOff + (n - 1) * stride < count <= c.bufOff + n * stride
    decreases count - c.bufOff
  {
    if c.bufOff < count {
      var segment := body(c);
      var next := Cursor(c.bufOff + stride, c.iteration + 1, c.issued + if segment.Read? then 1 else 0);
      var n := |Unroll(body, stride, count, c)|;
      LemmaUnrollLength(body, stride, count, next);
      assert n == 1 + |Unroll(body, stride, count, next)|;
      assert c.bufOff + (n - 1) * stride == c.bufOff + stride + (n - 2) * stride;
    }
  }

  /** block_offset in iteration m of a chunk loop entered with block_offset
      = first. */
  function BlockOf(first: u64, m: nat): u64 {
    Wrap64(first + m)
  }

  /** The loop body for a request, with block_offset counted on from `first`
      and blocks_before_offs from `counted`. */
  function Body(h: Handle, count: u32, offs: u64, first: u64, counted: u64, c: Cursor): (r: Segment)
    requires Ready(h)
  {
    Step(h, count, offs, c.bufOff, BlockOf(first, c.iteration), Wrap64(counted + c.issued))
  }

  /** Body as a function of the cursor alone. */
  function BodyOf(h: Handle, count: u32, offs: u64, first: u64, counted: u64): (f: Cursor --> Segment)
    requires Ready(h)
    ensures forall c :: f.requires(c) && f(c) == Body(h, count, offs, first, counted, c)
  {
    c requires Ready(h) => Body(h, count, offs, first, counted, c)
  }

  /** The chunk loop of lines 133-160, entered with block_offset = first and
      blocks_before_offs = counted. */
  function Chunks(h: Handle, count: u32, offs: u64, first: u64, counted: u64): (r: seq<Segment>)
    requires Ready(h)
    ensures |r| == 0 <==> count == 0
  {
    Unroll(BodyOf(h, count, offs, first, counted), BlockSize(h), count, Cursor(0, 0, 0))
  }

  /** Chunk m of a request covers buffer bytes m * block_size onwards, read_count
      of them. It is read from the image exactly when block first + m is used
      and its image offset, counted with one more block for every earlier
      read, is within the image; otherwise it is zero-filled. */
  lemma LemmaChunkAt(h: Handle, count: u32, offs: u64, first: u64, counted: u64, m: nat)
    requires Ready(h)
    requires m < |Chunks(h, count, offs, first, counted)|
    ensures var r := Chunks(h, count, offs, first, counted);
      var blocksBefore := Wrap64(counted + ReadsIn(r[..m]));
      && r[m].bufOff == m * BlockSize(h)
      && r[m].len == ReadCount(h, count)
      && (r[m].Read? <==> Used(h, BlockOf(first, m)) && PhysicalOffset(h, offs, r[m].bufOff, blocksBefore) <= h.size)
      && (r[m].Read? ==> r[m].physOff == PhysicalOffset(h, offs, r[m].bufOff, blocksBefore))
  {
    var body := BodyOf(h, count, offs, first, counted);
    var r := Chunks(h, count, offs, first, counted);
    LemmaUnrollIndexed(body, BlockSize(h), count, Cursor(0, 0, 0), m);
    var c := Cursor(m * BlockSize(h), m, ReadsIn(r[..m]));
    assert r[m] == body(c);
    assert r[m] == Step(h, count, offs, c.bufOff, BlockOf(first, m), Wrap64(counted + c.issued));
  }

  /** Iteration m of the chunk loop is the C loop body run with i = m *
      block_size, block_offset m past `first`, and blocks_before_offs moved on
      by the reads of the iterations before it. */
  lemma LemmaChunkIsStep(h: Handle, count: u32, offs: u64, first: u64, counted: u64, m: nat)
    requires Ready(h)
    requires m < |Chunks(h, count, offs, first, counted)|
    ensures var r := Chunks(h, count, offs, first, counted);
      r[m] == Step(h, count, offs, r[m].bufOff, BlockOf(first, m), Wrap64(counted + ReadsIn(r[..m])))
  {
    var body := BodyOf(h, count, offs, first, counted);
    var r := Chunks(h, count, offs, first, counted);
    LemmaUnrollIndexed(body, BlockSize(h), count, Cursor(0, 0, 0), m);
    assert r[m] == body(Cursor(m * BlockSize(h), m, ReadsIn(r[..m])));
  }

  /** The chunk loop moves i on by block_size: each chunk but the last starts
      a block after the one before it, every chunk starts below count, and a
      block past the start of the last one is at or beyond count. */
  lemma LemmaChunkNext(h: Handle, count: u32, offs: u64, first: u64, counted: u64, m: nat)
    requires Ready(h)
    requires m < |Chunks(h, count, offs, first, counted)|
    ensures var r := Chunks(h, count, offs, first, counted);
      && r[m].bufOff < count
      && (m + 1 < |r| ==> r[m + 1].bufOff == r[m].bufOff + BlockSize(h) < count)
      && (m + 1 == |r| ==> r[m].bufOff + BlockSize(h) >= count)
  {
    var r := Chunks(h, count, offs, first, counted);
    var bs := BlockSize(h);
    LemmaChunksCover(h, count, offs, first, counted);
    LemmaUnrollLength(BodyOf(h, count, offs, first, counted), bs, count, Cursor(0, 0, 0));
    LemmaMulMonotone(m, |r| - 1, bs);
    LemmaChunkAt(h, count, offs, first, counted, m);
    if m + 1 < |r| {
      LemmaMulMonotone(1, |r| - 1, bs);
      LemmaMulMonotone(m + 1, |r| - 1, bs);
    }
  }

  /** The bytes of the buffer the chunks write: up to the end of the last one. */
  function Extent(segs: seq<Segment>): nat {
    if |segs| == 0 then 0 else segs[|segs| - 1].bufOff + segs[|segs| - 1].len
  }

  /** The chunks of a request start at 0 and follow each other without gaps.
      They write at least count bytes and less than a block more; exactly
      count when the request is shorter than a block or a whole number of
      blocks, and otherwise the last chunk runs past the end of the request. */
  lemma LemmaChunksCover(h: Handle, count: u32, offs: u64, first: u64, counted: u64)
    requires Ready(h)
    ensures var r := Chunks(h, count, offs, first, counted);
      && (forall m :: 0 <= m < |r| ==> r[m].bufOff == m * BlockSize(h))
      && (forall m :: 0 < m < |r| ==> r[m].bufOff == r[m - 1].bufOff + r[m - 1].len)
      && count <= Extent(r) < count + BlockSize(h)
      && (Extent(r) == count <==> count < BlockSize(h) || count % BlockSize(h) == 0)
  {
    var r := Chunks(h, count, offs, first, counted);
    var bs := BlockSize(h);
    var body := BodyOf(h, count, offs, first, counted);
    LemmaUnrollLength(body, bs, count, Cursor(0, 0, 0));
    forall m | 0 <= m < |r|
      ensures r[m].bufOff == m * bs && r[m].len == ReadCount(h, count)
    {
      LemmaChunkAt(h, count, offs, first, counted, m);
    }
    if |r| > 1 {
      LemmaMulMonotone(1, |r| - 1, bs);
      assert count >= bs;
      forall m | 0 < m < |r|
        ensures r[m].bufOff == r[m - 1].bufOff + r[m - 1].len
      {
        assert (m - 1) * bs + bs == m * bs;
      }
    }
    if |r| > 0 {
      var n := |r|;
      if count < bs {
        assert n == 1;
      } else {
        assert Extent(r) == (n - 1) * bs + bs == n * bs;
        LemmaMultipleInWindow(count, n, bs);
      }
    }
  }

  /** Division by b is exact on multiples of b. */
  lemma LemmaDivMultiple(n: nat, b: nat)
    requires b > 0
    ensures (n * b) / b == n && (n * b) % b == 0
  {
    var q, r := (n * b) / b, (n * b) % b;
    assert n * b == q * b + r;
    LemmaMulMonotone(q + 1, n, b);
    LemmaMulMonotone(n + 1, q, b);
  }

  /** (n - 1) * b < count <= n * b singles out n as the rounded-up quotient;
      n * b lands on count exactly when b divides count. */
  lemma LemmaMultipleInWindow(count: nat, n: nat, b: nat)
    requires b > 0
    requires n > 0
    requires (n - 1) * b < count <= n * b
    ensures n * b == count <==> count % b == 0
  {
    if count % b == 0 {
      var q := count / b;
      assert q * b == count;
      LemmaMulMonotone(q, n - 1, b);
      LemmaMulMonotone(n + 1, q, b);
    } else {
      LemmaDivMultiple(n, b);
    }
  }

  // ---------------------------------------------------------------------
  // The whole call

  /** The segments partclone_pread carries out for a request of count bytes
      at virtual offset offs, or the error of a failed search. */
  function Plan(h: Handle, count: u32, offs: u64): (r: Result<seq<Segment>>)
    requires Ready(h)
    ensures r.Err? <==> BlocksBeforeOffs(h, offs).None?
    ensures r.Err? ==> r.error == SearchOutOfRange
    ensures r.Ok? ==> (|r.value| == 0 <==> count == 0)
  {
    match BlocksBeforeOffs(h, offs)
    case None => Err(SearchOutOfRange)
    case Some(found) => Ok(Chunks(h, count, offs, FirstBlock(h, offs), found.blocksBefore))
  }

  /** Every segment that reads from the image gets its bytes from the plugin. */
  predicate ReadsSucceed(p: Provider, segs: seq<Segment>) {
    forall k :: 0 <= k < |segs| && segs[k].Read? ==> ReadOk(p, segs[k].physOff, segs[k].len)
  }

  function Zeros(n: nat): (r: seq<u8>)
    ensures |r| == n
    ensures forall k :: 0 <= k < n ==> r[k] == 0
  {
    seq(n, _ => 0)
  }

  /** The bytes one segment puts in the buffer. */
  function Fill(p: Provider, s: Segment): (r: seq<u8>)
    requires s.Read? ==> ReadOk(p, s.physOff, s.len)
    ensures |r| == s.len
  {
    match s
    case Zero(_, len) => Zeros(len)
    case Read(_, len, off) => p.data[off..off + len]
  }

  /** Segments that start at buffer offset 0 and follow each other without
      gaps or overlap. */
  predicate Tiled(segs: seq<Segment>) {
    && (|segs| > 0 ==> segs[0].bufOff == 0)
    && forall m :: 0 < m < |segs| ==> segs[m].bufOff == segs[m - 1].bufOff + segs[m - 1].len
  }

  /** The pieces one after another. */
  function Concat<T>(pieces: seq<seq<T>>): seq<T> {
    if |pieces| == 0 then [] else Concat(pieces[..|pieces| - 1]) + pieces[|pieces| - 1]
  }

  /** Piece k of a concatenation sits right after the pieces before it. */
  lemma {:induction false} LemmaConcatPiece<T>(pieces: seq<seq<T>>, k: nat)
    requires k < |pieces|
    ensures var start := |Concat(pieces[..k])|;
      && start + |pieces[k]| <= |Concat(pieces)|
      && Concat(pieces)[start..start + |pieces[k]|] == pieces[k]
    decreases |pieces|
  {
    var n := |pieces|;
    var init := pieces[..n - 1];
    assert pieces[..n - 1][..k] == pieces[..k];
    if k < n - 1 {
      LemmaConcatPiece(init, k);
      var start := |Concat(pieces[..k])|;
      LemmaSliceOfFront(Concat(init), pieces[n - 1], start, start + |pieces[k]|);
    }
  }

  /** A slice within the first part of a concatenation is a slice of that part. */
  lemma LemmaSliceOfFront<T>(a: seq<T>, b: seq<T>, i: nat, j: nat)
    requires i <= j <= |a|
    ensures (a + b)[i..j] == a[i..j]
  {
  }

  /** Pieces holding nothing but x concatenate to nothing but x. */
  lemma {:induction false} LemmaConcatConstant<T>(pieces: seq<seq<T>>, x: T)
    requires forall m, i :: 0 <= m < |pieces| && 0 <= i < |pieces[m]| ==> pieces[m][i] == x
    ensures forall i :: 0 <= i < |Concat(pieces)| ==> Concat(pieces)[i] == x
    decreases |pieces|
  {
    if |pieces| > 0 {
      LemmaConcatConstant(pieces[..|pieces| - 1], x);
    }
  }

  /** The bytes each segment puts in the buffer, in order. */
  function Pieces(p: Provider, segs: seq<Segment>): (r: seq<seq<u8>>)
    requires ReadsSucceed(p, segs)
    ensures |r| == |segs|
    ensures forall k :: 0 <= k < |segs| ==> r[k] == Fill(p, segs[k])
  {
    seq(|segs|, k requires 0 <= k < |segs| => Fill(p, segs[k]))
  }

  /** The buffer the segments write, one after another. */
  function Buffer(p: Provider, segs: seq<Segment>): seq<u8>
    requires ReadsSucceed(p, segs)
  {
    Concat(Pieces(p, segs))
  }

  /** The first k segments of a tiled list write up to the end of segment
      k - 1. */
  lemma {:induction false} LemmaTiledPrefix(p: Provider, segs: seq<Segment>, k: nat)
    requires ReadsSucceed(p, segs)
    requires Tiled(segs)
    requires k <= |segs|
    ensures |Concat(Pieces(p, segs)[..k])| == if k == 0 then 0 else segs[k - 1].bufOff + segs[k - 1].len
    decreases k
  {
    if k > 0 {
      var pieces := Pieces(p, segs);
      assert pieces[..k][..k - 1] == pieces[..k - 1];
      LemmaTiledPrefix(p, segs, k - 1);
    }
  }

  /** A tiled list writes the buffer up to the end of its last segment. */
  lemma LemmaBufferLength(p: Provider, segs: seq<Segment>)
    requires ReadsSucceed(p, segs)
    requires Tiled(segs)
    ensures |Buffer(p, segs)| == Extent(segs)
  {
    LemmaTiledPrefix(p, segs, |segs|);
    assert Pieces(p, segs)[..|segs|] == Pieces(p, segs);
  }

  /** Each segment of a tiled list finds its bytes at its own buffer offset. */
  lemma LemmaBufferContents(p: Provider, segs: seq<Segment>, k: nat)
    requires ReadsSucceed(p, segs)
    requires Tiled(segs)
    requires k < |segs|
    ensures segs[k].bufOff + segs[k].len <= |Buffer(p, segs)|
    ensures Buffer(p, segs)[segs[k].bufOff..segs[k].bufOff + segs[k].len] == Fill(p, segs[k])
  {
    LemmaConcatPiece(Pieces(p, segs), k);
    LemmaTiledPrefix(p, segs, k);
  }

  /** A list without Read segments writes nothing but zeros. */
  lemma LemmaBufferWithoutReads(p: Provider, segs: seq<Segment>)
    requires forall m :: 0 <= m < |segs| ==> segs[m].Zero?
    ensures ReadsSucceed(p, segs)
    ensures forall k :: 0 <= k < |Buffer(p, segs)| ==> Buffer(p, segs)[k] == 0
  {
    var pieces := Pieces(p, segs);
    LemmaConcatConstant(pieces, 0);
  }

  /** The chunks of a request are tiled. */
  lemma LemmaChunksTiled(h: Handle, count: u32, offs: u64, first: u64, counted: u64)
    requires Ready(h)
    ensures Tiled(Chunks(h, count, offs, first, counted))
  {
    LemmaChunksCover(h, count, offs, first, counted);
  }

  /** partclone_pread with the plugin's reads carried out: the caller's
      buffer, or the error that makes the call return -1. A failed search is
      reported as SearchOutOfRange and a failed plugin read as ProviderError. */
  function PartclonePread(h: Handle, p: Provider, count: u32, offs: u64): (r: Result<seq<u8>>)
    requires Ready(h)
    ensures r.Ok? <==> Plan(h, count, offs).Ok? && ReadsSucceed(p, Plan(h, count, offs).value)
    ensures r.Err? ==> (r.error == SearchOutOfRange <==> Plan(h, count, offs).Err?)
    ensures r.Ok? ==> count <= |r.value| < count + BlockSize(h)
  {
    match Plan(h, count, offs)
    case Err(e) => Err(e)
    case Ok(segs) =>
      if ReadsSucceed(p, segs) then
        LemmaChunksCover(h, count, offs, FirstBlock(h, offs), BlocksBeforeOffs(h, offs).value.blocksBefore);
        LemmaChunksTiled(h, count, offs, FirstBlock(h, offs), BlocksBeforeOffs(h, offs).value.blocksBefore);
        LemmaBufferLength(p, segs);
        Ok(Buffer(p, segs))
      else Err(ProviderError)
  }

  /** What a successful call leaves in the buffer: chunk m's bytes are zeros
      when the chunk is zero-filled, and otherwise the image bytes at its
      physical offset. */
  lemma LemmaPreadContents(h: Handle, p: Provider, count: u32, offs: u64, m: nat)
    requires Ready(h)
    requires BlocksBeforeOffs(h, offs).Some?
    requires ReadsSucceed(p, Chunks(h, count, offs, FirstBlock(h, offs), BlocksBeforeOffs(h, offs).value.blocksBefore))
    requires m < |Chunks(h, count, offs, FirstBlock(h, offs), BlocksBeforeOffs(h, offs).value.blocksBefore)|
    ensures PartclonePread(h, p, count, offs).Ok?
    ensures var s := Plan(h, count, offs).value[m];
      var buf := PartclonePread(h, p, count, offs).value;
      && s.bufOff + s.len <= |buf|
      && buf[s.bufOff..s.bufOff + s.len] == (if s.Read? then p.data[s.physOff..s.physOff + s.len] else Zeros(s.len))
  {
    var found := BlocksBeforeOffs(h, offs).value;
    var segs := Plan(h, count, offs).value;
    LemmaChunksTiled(h, count, offs, FirstBlock(h, offs), found.blocksBefore);
    LemmaBufferContents(p, segs, m);
  }

  /** The loop reads only used blocks: with none of the blocks first + m of
      its chunks used, every chunk is zero-filled. */
  lemma LemmaNoUsedBlockNoRead(h: Handle, count: u32, offs: u64, first: u64, counted: u64)
    requires Ready(h)
    requires forall m :: 0 <= m < |Chunks(h, count, offs, first, counted)| ==> !Used(h, BlockOf(first, m))
    ensures forall m :: 0 <= m < |Chunks(h, count, offs, first, counted)| ==> Chunks(h, count, offs, first, counted)[m].Zero?
  {
    var r := Chunks(h, count, offs, first, counted);
    forall m | 0 <= m < |r|
      ensures r[m].Zero?
    {
      assert !Used(h, BlockOf(first, m));
      LemmaChunkAt(h, count, offs, first, counted, m);
    }
  }

  /** A request none of whose blocks is used is answered with zeros and
      needs no read from the plugin, whatever the plugin would return. */
  lemma LemmaUnusedRangeReadsZeros(h: Handle, p: Provider, count: u32, offs: u64)
    requires Ready(h)
    requires BlocksBeforeOffs(h, offs).Some?
    requires forall m :: 0 <= m < |Chunks(h, count, offs, FirstBlock(h, offs), BlocksBeforeOffs(h, offs).value.blocksBefore)| ==>
      !Used(h, BlockOf(FirstBlock(h, offs), m))
    ensures PartclonePread(h, p, count, offs).Ok?
    ensures forall k :: 0 <= k < |PartclonePread(h, p, count, offs).value| ==> PartclonePread(h, p, count, offs).value[k] == 0
  {
    var found := BlocksBeforeOffs(h, offs).value;
    var segs := Plan(h, count, offs).value;
    LemmaNoUsedBlockNoRead(h, count, offs, FirstBlock(h, offs), found.blocksBefore);
    LemmaBufferWithoutReads(p, segs);
  }

  /** test_bit answers -1 for a block index at or past total_block, so the
      loop zero-fills such a chunk without asking the plugin. */
  lemma LemmaChunkPastEndIsZero(h: Handle, count: u32, offs: u64, first: u64, counted: u64, m: nat)
    requires Ready(h)
    requires m < |Chunks(h, count, offs, first, counted)|
    requires BlockOf(first, m) >= TotalBlock(h)
    ensures Chunks(h, count, offs, first, counted)[m].Zero?
  {
    LemmaChunkAt(h, count, offs, first, counted, m);
  }

  /** Two handles that agree on everything pread looks at: the bitmap,
      block_start, bitmap_size, the image size, and the header's total_block,
      block_size and blocks_per_checksum. */
  predicate SameGeometry(h: Handle, g: Handle) {
    && h.bitmap == g.bitmap
    && h.blockStart == g.blockStart
    && h.bitmapSize == g.bitmapSize
    && h.size == g.size
    && TotalBlock(h) == TotalBlock(g)
    && BlockSize(h) == BlockSize(g)
    && BlocksPerChecksum(h) == BlocksPerChecksum(g)
  }

  lemma {:induction false} LemmaSearchSameGeometry(h: Handle, g: Handle, offs: u64, i: u64, j: nat, blocksBefore: nat)
    requires Ready(h)
    requires SameGeometry(h, g)
    ensures Ready(g)
    ensures SearchFrom(g, offs, i, j, blocksBefore) == SearchFrom(h, offs, i, j, blocksBefore)
    decreases SearchLimit(h) - j
  {
    if i < offs && j < TotalBlock(h) && j < Wrap64(h.bitmapSize * 64) {
      assert Used(g, j) == Used(h, j);
      var next := blocksBefore + if Used(h, j) then 1 else 0;
      assert SearchFrom(g, offs, i, j, blocksBefore) == SearchFrom(g, offs, Wrap64(i + BlockSize(h)), j + 1, next);
      LemmaSearchSameGeometry(h, g, offs, Wrap64(i + BlockSize(h)), j + 1, next);
    }
  }

  /** Loops whose bodies agree on every cursor produce the same segments. */
  lemma {:induction false} LemmaUnrollSameBody(f: Cursor --> Segment, g: Cursor --> Segment, stride: nat, count: nat, c: Cursor)
    requires forall d :: f.requires(d)
    requires forall d :: g.requires(d)
    requires forall d :: f(d) == g(d)
    requires stride > 0
    ensures Unroll(f, stride, count, c) == Unroll(g, stride, count, c)
    decreases count - c.bufOff
  {
    if c.bufOff < count {
      var segment := f(c);
      var next := Cursor(c.bufOff + stride, c.iteration + 1, c.issued + if segment.Read? then 1 else 0);
      LemmaUnrollSameBody(f, g, stride, count, next);
    }
  }

  /** The loop body reads nothing of the handle but its geometry. */
  lemma LemmaStepSameGeometry(h: Handle, g: Handle, count: u32, offs: u64, i: nat, blockOffset: u64, blocksBefore: u64)
    requires Ready(h)
    requires SameGeometry(h, g)
    ensures Ready(g)
    ensures Step(g, count, offs, i, blockOffset, blocksBefore) == Step(h, count, offs, i, blockOffset, blocksBefore)
  {
    assert Used(g, blockOffset) == Used(h, blockOffset);
  }

  /** Nor does the chunk loop. */
  lemma LemmaChunksSameGeometry(h: Handle, g: Handle, count: u32, offs: u64, first: u64, counted: u64)
    requires Ready(h)
    requires SameGeometry(h, g)
    ensures Ready(g)
    ensures Chunks(g, count, offs, first, counted) == Chunks(h, count, offs, first, counted)
  {
    var fg := BodyOf(g, count, offs, first, counted);
    var fh := BodyOf(h, count, offs, first, counted);
    forall d ensures fg(d) == fh(d) {
      LemmaStepSameGeometry(h, g, count, offs, d.bufOff, BlockOf(first, d.iteration), Wrap64(counted + d.issued));
    }
    LemmaUnrollSameBody(fg, fh, BlockSize(h), count, Cursor(0, 0, 0));
  }

  /** pread depends on the handle only through its geometry: every other
      header field, the header's own bitmap_size and checksum_size among
      them, leaves the result unchanged. */
  lemma LemmaPreadDependsOnGeometry(h: Handle, g: Handle, p: Provider, count: u32, offs: u64)
    requires Ready(h)
    requires SameGeometry(h, g)
    ensures Ready(g)
    ensures PartclonePread(g, p, count, offs) == PartclonePread(h, p, count, offs)
  {
    LemmaSearchSameGeometry(h, g, offs, h.blockStart, 0, 0);
    var found := BlocksBeforeOffs(h, offs);
    if found.Some? {
      LemmaChunksSameGeometry(h, g, count, offs, FirstBlock(h, offs), found.value.blocksBefore);
    }
  }

  /** The checksum adjustment is 4 bytes whatever checksum_size the header
      declares. */
  lemma LemmaChecksumSizeIgnored(h: Handle, checksumSize: u16, p: Provider, count: u32, offs: u64)
    requires Ready(h)
    ensures var g := h.(header := h.header.(options := h.header.options.(checksumSize := checksumSize)));
      Ready(g) && PartclonePread(g, p, count, offs) == PartclonePread(h, p, count, offs)
  {
    var g := h.(header := h.header.(options := h.header.options.(checksumSize := checksumSize)));
    LemmaPreadDependsOnGeometry(h, g, p, count, offs);
  }

  // ---------------------------------------------------------------------
  // The C function

  /** The search loop of lines 120-127 over mutable state. */
  method SearchLoop(h: Handle, offs: u64) returns (r: Option<Found>)
    requires Ready(h)
    ensures r == BlocksBeforeOffs(h, offs)
  {
    var i: u64 := h.blockStart;
    var j: nat := 0;
    var blocksBeforeOffs: nat := 0;
    while i < offs
      invariant j <= SearchLimit(h)
      invariant i == Position(h, j)
      invariant SearchFrom(h, offs, i, j, blocksBeforeOffs) == BlocksBeforeOffs(h, offs)
      decreases SearchLimit(h) - j
    {
      if j >= TotalBlock(h) || j >= Wrap64(h.bitmapSize * 64) {
        return None;
      }
      LemmaSearchStep(h, offs, i, j, blocksBeforeOffs);
      blocksBeforeOffs := blocksBeforeOffs + if TestBit(j, Some(h.bitmap), TotalBlock(h)) > 0 then 1 else 0;
      i := Wrap64(i + BlockSize(h));
      j := j + 1;
    }
    return Some(Found(j, blocksBeforeOffs));
  }

  /** One pass of the chunk loop body (lines 134-158) as the C code runs it:
      the bytes it writes at buffer offset i, or None when the plugin read
      fails, and blocks_before_offs after it. */
  method ChunkIteration(h: Handle, p: Provider, count: u32, offs: u64, i: nat, blockOffset: u64, blocksBeforeOffs: u64)
    returns (bytes: Option<seq<u8>>, after: u64)
    requires Ready(h)
    ensures var s := Step(h, count, offs, i, blockOffset, blocksBeforeOffs);
      && (bytes.Some? <==> (s.Read? ==> ReadOk(p, s.physOff, s.len)))
      && (bytes.Some? ==> bytes.value == Fill(p, s))
      && (bytes.Some? ==> after == if s.Read? then Wrap64(blocksBeforeOffs + 1) else blocksBeforeOffs)
  {
    var readCount: nat := if count < BlockSize(h) then count else BlockSize(h);
    after := blocksBeforeOffs;
    if TestBit(blockOffset, Some(h.bitmap), TotalBlock(h)) > 0 {
      var offset := Wrap64(offs + i + h.blockStart + Wrap64(blocksBeforeOffs / BlocksPerChecksum(h) * 4));
      if offset > h.size {
        return Some(Zeros(readCount)), after;
      }
      bytes := ProviderRead(p, offset, readCount);
      if bytes.None? {
        return;
      }
      after := Wrap64(blocksBeforeOffs + 1);
    } else {
      bytes := Some(Zeros(readCount));
    }
  }

  /** The chunk loop of lines 132-160 over mutable state, writing the
      caller's buffer chunk by chunk and returning at the first failed read. */
  method ChunkLoop(h: Handle, p: Provider, count: u32, offs: u64, first: u64, counted: u64) returns (r: Result<seq<u8>>)
    requires Ready(h)
    ensures r.Ok? <==> ReadsSucceed(p, Chunks(h, count, offs, first, counted))
    ensures r.Ok? ==> r.value == Buffer(p, Chunks(h, count, offs, first, counted))
    ensures r.Err? ==> r.error == ProviderError
  {
    LemmaChunksArePlan(h, count, offs, first, counted);
    r := RunPlan(h, p, count, offs, first, counted, Chunks(h, count, offs, first, counted));
  }

  /** Chunk m of `plan` is the C loop body at the state the chunks before it
      leave, starts below count, and is followed by a chunk one block further
      on exactly when a block further on is still below count. */
  ghost predicate ChunkFits(h: Handle, count: u32, offs: u64, first: u64, counted: u64, plan: seq<Segment>, m: nat)
    requires Ready(h)
    requires m < |plan|
  {
    && plan[m].bufOff < count
    && (m + 1 < |plan| ==> plan[m + 1].bufOff == plan[m].bufOff + BlockSize(h))
    && (m + 1 == |plan| ==> plan[m].bufOff + BlockSize(h) >= count)
    && plan[m] == Step(h, count, offs, plan[m].bufOff, BlockOf(first, m), Wrap64(counted + ReadsIn(plan[..m])))
  }

  /** What the loop needs to know of the chunk list: one chunk per iteration,
      starting at buffer offset 0, each fitting as ChunkFits says. */
  ghost predicate IsPlan(h: Handle, count: u32, offs: u64, first: u64, counted: u64, plan: seq<Segment>)
    requires Ready(h)
  {
    && (|plan| == 0 <==> count == 0)
    && (|plan| > 0 ==> plan[0].bufOff == 0)
    && forall m :: 0 <= m < |plan| ==> ChunkFits(h, count, offs, first, counted, plan, m)
  }

  lemma LemmaChunkFits(h: Handle, count: u32, offs: u64, first: u64, counted: u64, m: nat)
    requires Ready(h)
    requires m < |Chunks(h, count, offs, first, counted)|
    ensures ChunkFits(h, count, offs, first, counted, Chunks(h, count, offs, first, counted), m)
  {
    LemmaChunkNext(h, count, offs, first, counted, m);
    LemmaChunkIsStep(h, count, offs, first, counted, m);
  }

  lemma LemmaChunksArePlan(h: Handle, count: u32, offs: u64, first: u64, counted: u64)
    requires Ready(h)
    ensures IsPlan(h, count, offs, first, counted, Chunks(h, count, offs, first, counted))
  {
    var plan := Chunks(h, count, offs, first, counted);
    forall m | 0 <= m < |plan|
      ensures ChunkFits(h, count, offs, first, counted, plan, m)
    {
      LemmaChunkFits(h, count, offs, first, counted, m);
    }
    if |plan| > 0 {
      LemmaChunkAt(h, count, offs, first, counted, 0);
    }
  }

  /** The loop itself, run over any list that IsPlan describes. The bytes
      of the chunk at buffer offset i are kept as the next entry of `pieces`;
      the caller's buffer is their concatenation. */
  method RunPlan(h: Handle, p: Provider, count: u32, offs: u64, first: u64, counted: u64, ghost plan: seq<Segment>)
    returns (r: Result<seq<u8>>)
    requires Ready(h)
    requires IsPlan(h, count, offs, first, counted, plan)
    ensures r.Ok? <==> ReadsSucceed(p, plan)
    ensures r.Ok? ==> r.value == Buffer(p, plan)
    ensures r.Err? ==> r.error == ProviderError
  {
    ghost var done: seq<Segment> := [];
    var blockOffset: u64 := first;
    var blocksBeforeOffs: u64 := counted;
    var pieces: seq<seq<u8>> := [];
    var i: nat := 0;
    while i < count
      invariant LoopInvariant(h, count, first, counted, plan, done, i, blockOffset, blocksBeforeOffs)
      invariant Written(p, done, pieces)
      decreases count - i
    {
      var bytes, after := ChunkIteration(h, p, count, offs, i, blockOffset, blocksBeforeOffs);
      ghost var done' := LemmaLoopStep(h, p, count, offs, first, counted, plan, done, i, blockOffset, blocksBeforeOffs, pieces, bytes, after);
      if bytes.None? {
        return Err(ProviderError);
      }
      done := done';
      pieces := pieces + [bytes.value];
      blockOffset := Wrap64(blockOffset + 1);
      blocksBeforeOffs := after;
      i := i + BlockSize(h);
    }
    LemmaLoopEnds(h, p, count, first, counted, plan, done, i, blockOffset, blocksBeforeOffs, pieces);
    return Ok(Concat(pieces));
  }

  /** What the chunk loop keeps: `done` is the prefix of the plan it has run,
      and i, block_offset and blocks_before_offs are where that prefix leaves
      them. */
  ghost predicate LoopInvariant(h: Handle, count: u32, first: u64, counted: u64, plan: seq<Segment>,
                                done: seq<Segment>, i: nat, blockOffset: u64, blocksBeforeOffs: u64)
  {
    && |done| <= |plan| && done == plan[..|done|]
    && (|done| < |plan| ==> i == plan[|done|].bufOff < count)
    && (|done| == |plan| ==> i >= count)
    && blockOffset == BlockOf(first, |done|)
    && blocksBeforeOffs == Wrap64(counted + ReadsIn(done))
  }

  /** Every read of `segs` succeeded and `pieces` holds the bytes of each. */
  ghost predicate Written(p: Provider, segs: seq<Segment>, pieces: seq<seq<u8>>) {
    && ReadsSucceed(p, segs)
    && |pieces| == |segs|
    && forall k :: 0 <= k < |segs| ==> pieces[k] == Fill(p, segs[k])
  }

  /** One iteration of the chunk loop, whatever its outcome: a failed read
      fails the whole request, anything else extends the prefix. */
  lemma LemmaLoopStep(h: Handle, p: Provider, count: u32, offs: u64, first: u64, counted: u64, plan: seq<Segment>,
                      done: seq<Segment>, i: nat, blockOffset: u64, blocksBeforeOffs: u64, pieces: seq<seq<u8>>,
                      bytes: Option<seq<u8>>, after: u64) returns (done': seq<Segment>)
    requires Ready(h)
    requires IsPlan(h, count, offs, first, counted, plan)
    requires LoopInvariant(h, count, first, counted, plan, done, i, blockOffset, blocksBeforeOffs)
    requires Written(p, done, pieces)
    requires i < count
    requires var s := Step(h, count, offs, i, blockOffset, blocksBeforeOffs);
      && (bytes.Some? <==> (s.Read? ==> ReadOk(p, s.physOff, s.len)))
      && (bytes.Some? ==> bytes.value == Fill(p, s))
      && (bytes.Some? ==> after == if s.Read? then Wrap64(blocksBeforeOffs + 1) else blocksBeforeOffs)
    ensures bytes.None? ==> !ReadsSucceed(p, plan)
    ensures bytes.Some? ==>
      && LoopInvariant(h, count, first, counted, plan, done', i + BlockSize(h), Wrap64(blockOffset + 1), after)
      && Written(p, done', pieces + [bytes.value])
  {
    var m := |done|;
    assert plan[..m] == done;
    assert ChunkFits(h, count, offs, first, counted, plan, m);
    var segment := plan[m];
    assert segment == Step(h, count, offs, i, blockOffset, blocksBeforeOffs);
    if bytes.None? {
      done' := done;
    } else {
      LemmaAdvanceCounters(first, counted, done, segment, blockOffset, blocksBeforeOffs, after);
      LemmaExtendPrefix(plan, done);
      if m + 1 < |plan| {
        assert ChunkFits(h, count, offs, first, counted, plan, m + 1);
      }
      done' := done + [segment];
    }
  }

  /** block_offset and blocks_before_offs after an iteration are where the
      longer prefix leaves them. */
  lemma LemmaAdvanceCounters(first: u64, counted: u64, done: seq<Segment>, segment: Segment,
                             blockOffset: u64, blocksBeforeOffs: u64, after: u64)
    requires blockOffset == BlockOf(first, |done|)
    requires blocksBeforeOffs == Wrap64(counted + ReadsIn(done))
    requires after == if segment.Read? then Wrap64(blocksBeforeOffs + 1) else blocksBeforeOffs
    ensures Wrap64(blockOffset + 1) == BlockOf(first, |done + [segment]|)
    ensures after == Wrap64(counted + ReadsIn(done + [segment]))
  {
    LemmaReadsInAppend(done, segment);
    LemmaWrapAdd(counted + ReadsIn(done), 1);
    LemmaWrapAdd(first + |done|, 1);
  }

  lemma LemmaExtendPrefix<T>(s: seq<T>, prefix: seq<T>)
    requires |prefix| < |s| && prefix == s[..|prefix|]
    ensures s[..|prefix| + 1] == prefix + [s[|prefix|]]
  {
  }

  lemma LemmaLoopEnds(h: Handle, p: Provider, count: u32, first: u64, counted: u64, plan: seq<Segment>,
                      done: seq<Segment>, i: nat, blockOffset: u64, blocksBeforeOffs: u64, pieces: seq<seq<u8>>)
    requires LoopInvariant(h, count, first, counted, plan, done, i, blockOffset, blocksBeforeOffs)
    requires Written(p, done, pieces)
    requires i >= count
    ensures ReadsSucceed(p, plan)
    ensures Concat(pieces) == Buffer(p, plan)
  {
    assert done == plan;
    assert pieces == Pieces(p, plan);
  }

  /** partclone_pread as the C code runs it: the search, then the chunk loop
      entered with block_offset = offs / block_size. */
  method PreadLoop(h: Handle, p: Provider, count: u32, offs: u64) returns (r: Result<seq<u8>>)
    requires Ready(h)
    ensures r == PartclonePread(h, p, count, offs)
  {
    var found := SearchLoop(h, offs);
    if found.None? {
      return Err(SearchOutOfRange);
    }
    r := ChunkLoop(h, p, count, offs, offs / BlockSize(h), found.value.blocksBefore);
  }
}

=== FILE: scenarios.dfy ===
/** Worked requests: where partclone_pread reads a used block from, next to
    where the image stores it, and what its search loop counts. */
module Scenarios {
  import opened Outcomes
  import opened Bytes
  import opened Image
  import opened PartcloneFilter
  import opened Pread

  /** An image of two 512-byte blocks, a checksum after every block, where
      only block 1 is in use; block_start as partclone_prepare computes it. */
  function TwoBlockImage(): (h: Handle)
    ensures Ready(h)
    ensures h.blockStart == BlockStart(TotalBlock(h))
  {
    var fsInfo := FileSystemInfo([], 1024, 2, 1, 1, 512);
    var options := ImageOptions(0, 0, 0, 0, 4, 1, 0, 0);
    Handle(Header(ImageHead([], [], [], 0), fsInfo, options, 0), [2], 122, 8, 2000)
  }

  /** Reading the 512 bytes of virtual block 1 plans one read at image offset
      634: the virtual offset 512 plus block_start 122. Block 1 is the first
      used block, so the image stores its bytes right after the bitmap's crc,
      at 115; the block_start the filter itself computes, 122, is not it
      either. */
  lemma LemmaReadsAtVirtualOffset()
    ensures var h := TwoBlockImage();
      && !Used(h, 0) && Used(h, 1)
      && Plan(h, 512, 512) == Ok([Read(0, 512, 634)])
      && OnDiskBlockStart(TotalBlock(h)) == 115
      && Plan(h, 512, 512).value[0].physOff != OnDiskBlockStart(TotalBlock(h))
      && Plan(h, 512, 512).value[0].physOff != h.blockStart
  {
    var h := TwoBlockImage();
    assert Digit(2, 0) == 0 && Digit(2, 1) == 1;
    assert !Used(h, 0) && Used(h, 1);
    assert BlocksBeforeOffs(h, 512) == Some(Found(1, 0)) by {
      assert SearchFrom(h, 512, 122, 0, 0) == SearchFrom(h, 512, 634, 1, 0);
    }
    assert FirstBlock(h, 512) == 1;
    var r := Chunks(h, 512, 512, 1, 0);
    LemmaChunksCover(h, 512, 512, 1, 0);
    assert |r| == 1;
    LemmaChunkAt(h, 512, 512, 1, 0, 0);
    assert PhysicalOffset(h, 512, 0, 0) == 634;
    assert r[0] == Read(0, 512, 634);
    assert r == [Read(0, 512, 634)];
    assert Plan(h, 512, 512) == Ok(r);
    assert OnDiskBitmapSize(2) == 1;
  }

  /** An image of four 64-byte blocks, a checksum after every block, where
      blocks 0 and 1 are in use; block_start as partclone_prepare computes it. */
  function FourBlockImage(): (h: Handle)
    ensures Ready(h)
    ensures h.blockStart == BlockStart(TotalBlock(h))
  {
    var fsInfo := FileSystemInfo([], 256, 4, 2, 1, 64);
    var options := ImageOptions(0, 0, 0, 0, 4, 1, 0, 0);
    Handle(Header(ImageHead([], [], [], 0), fsInfo, options, 0), [3], 122, 8, 251)
  }

  /** The search loop starts at the physical block_start, 122, but compares
      with the virtual offs. A request at offs 128 starts at block 2, after
      two used blocks, yet the loop takes one step and counts one; at offs 100
      the request starts at block 1, after one used block, and the loop counts
      none. */
  lemma LemmaSearchUndercounts()
    ensures var h := FourBlockImage();
      && Used(h, 0) && Used(h, 1) && !Used(h, 2)
      && FirstBlock(h, 128) == 2 && UsedIn(h, 0, FirstBlock(h, 128)) == 2
      && BlocksBeforeOffs(h, 128) == Some(Found(1, 1))
      && FirstBlock(h, 100) == 1 && UsedIn(h, 0, FirstBlock(h, 100)) == 1
      && BlocksBeforeOffs(h, 100) == Some(Found(0, 0))
  {
    var h := FourBlockImage();
    assert Digit(3, 0) == 1 && Digit(3, 1) == 1 && Digit(3, 2) == 0;
    assert Used(h, 0) && Used(h, 1) && !Used(h, 2);
    assert UsedIn(h, 0, 2) == 2;
    assert UsedIn(h, 0, 1) == 1;
    assert BlocksBeforeOffs(h, 128) == Some(Found(1, 1)) by {
      assert SearchFrom(h, 128, 122, 0, 0) == SearchFrom(h, 128, 186, 1, 1);
    }
    assert BlocksBeforeOffs(h, 100) == Some(Found(0, 0));
  }
}
